=== FILE: README.md ===
# constexpr_containers vector, modelled in Dafny

This project models the growable array of the constexpr_containers library. It covers
`constexpr_containers::vector_base<T, Allocator>`, which is also the library's `vector`,
and its near-copy `simple::vector`. It also covers the uninitialized-memory helpers of
`algorithm.h` that both are built on.

The model is split into modules:

- `Allocation`: what the container sees of its allocator.
  - An allocator is a value compared with `==`.
  - The `allocator_traits` flags: propagate on copy, move and swap, and `is_always_equal`.
  - `max_size()` is taken as an opaque bound.
  - The growth rule of each template (`Flavor.Grow`).
  - The errors an operation reports: `std::out_of_range`, `std::length_error`, the allocator's own failure, and an element constructor's exception.
- `Algorithm`: `make_range`, `zip_transform`, `zip_foreach` and the six `uninitialized_*` algorithms.
  - Source ranges are sequences.
  - Destinations are raw slots of an array.
- `SequenceModel`: the element sequences the operations produce, with lemmas about them: insertion, range removal, `remove_if`.
- `Comparison`: `std::equal` and `std::lexicographical_compare_three_way` on sequences, with their laws.
- `VectorBase`: the container, as class `Vector`.
  - The block `[m_begin, m_realend)` is an array `buf`, and `m_end - m_begin` is `len`.
  - The live elements are `buf[..len]`.
  - `kind.flavor` tells the two templates apart.
  - Every method that may fail takes an `Env`. It says whether the allocator refuses the request and whether an element constructor throws.
  - A path that builds a new block is proved to leave the container as it was when that fails. This is the source's strong guarantee. The exception is copy assignment with a propagating allocator that compares unequal: it frees the old block first, so on failure it is left empty.
  - A ghost field `owner` records the allocator that supplied the block. `Valid()` requires it to be interchangeable with `m_alloc`, which is the allocator that frees the block.
  - The free functions are also in this module: `swap`, `erase`, `erase_if`, `operator==`, `operator<=>`.
- `Findings`: source code that does what it evidently was not meant to, written out as it stands, each with an input that shows the defect.
- `Scenarios`: the test programs' constexpr functions, plus characteristic uses. Each has the outcome it must have.

Allocation failure and exceptions are inputs. Freeing a block is dropping the reference to it. `std::launder` is the identity. A moved-from element keeps its value.

Where the code has one of the defects listed under Findings, `Vector` does what the comments and the rest of the code show was intended. A `// Source:` comment at that spot says what the code does instead.

## Model

| member | source | states |
|---|---|---|
| Allocation.Flavor.Grow | include/constexpr_containers/vector_base.h:565-568 | The capacity a full container grows to always leaves a slot for the new element, is at most 2n+1 and at least 2n. |
| Algorithm.MakeRange | include/constexpr_containers/algorithm.h:37-55 | A for loop over make_range(b, e) visits e - b positions, in order, the k-th being b + k. |
| Algorithm.Positions | include/constexpr_containers/algorithm.h:46-53 | A for loop over a range visits end - begin positions, the k-th being begin + k. |
| Algorithm.ZipTransform | include/constexpr_containers/algorithm.h:57-69 | dst[d+i] becomes op(fst[i], rest[i]) for each i of the first range, and no other slot changes. The returned position is one past the last written. |
| Algorithm.ZipForeach | include/constexpr_containers/algorithm.h:71-79 | The result is op applied to each pair of elements in turn. |
| Algorithm.ZipFoldVisitsEachIndexInOrder | include/constexpr_containers/algorithm.h:71-79 | op is called exactly once per index of the first range, in increasing order, with (fst[i], rest[i]). |
| Algorithm.UninitializedCopy | include/constexpr_containers/algorithm.h:81-92 | The slots [d, d+n) receive the source elements in order, and nothing else changes. Returns d+n. |
| Algorithm.UninitializedMove | include/constexpr_containers/algorithm.h:94-105 | Same slots and result as the copy. |
| Algorithm.UninitializedMoveIfNoexcept | include/constexpr_containers/algorithm.h:107-118 | Same slots and result as the copy. |
| Algorithm.UninitializedCopyLaunder | include/constexpr_containers/algorithm.h:120-131 | Same as the unlaundered copy. |
| Algorithm.UninitializedMoveLaunder | include/constexpr_containers/algorithm.h:133-144 | Same as the unlaundered move. |
| Algorithm.UninitializedMoveIfNoexceptLaunder | include/constexpr_containers/algorithm.h:146-161 | Same as the unlaundered move_if_noexcept. |
| SequenceModel.Repeat | include/constexpr_containers/vector_base.h:78-87 | count copies of value: the length is count and every element equals value. |
| SequenceModel.InsertThenRemove | include/constexpr_containers/vector_base.h:787-796 | Inserting a sequence at i and then erasing [i, i+n) gives back the original. |
| SequenceModel.InsertAtConcat | include/constexpr_containers/vector_base.h:751-758 | Inserting elements one after another at consecutive positions is inserting them all at once. |
| SequenceModel.RemovedIfAppend | include/constexpr_containers/vector_base.h:891-900 | Removal works piecewise over concatenation, so the kept elements stay in order. |
| SequenceModel.RemovedIfLength | include/constexpr_containers/vector_base.h:896-898 | The kept elements and the removed count add up to the original length. |
| SequenceModel.RemovedIfMembers | include/constexpr_containers/vector_base.h:891-900 | An element is kept exactly when it was present and does not match. |
| SequenceModel.RemovedIfNoMatch | include/constexpr_containers/vector_base.h:891-900 | With nothing matching, nothing is removed and the count is zero. |
| Comparison.PairwiseEqual | include/constexpr_containers/vector_base.h:802-809 | std::equal over two ranges holds exactly when the lengths agree and the elements are pairwise equal, that is, when the sequences are equal. |
| Comparison.LexCompareSkipsEquivalentPrefix | include/constexpr_containers/vector_base.h:820-831 | A prefix of equivalent pairs does not decide the comparison. |
| Comparison.LexCompareFirstDifference | include/constexpr_containers/vector_base.h:820-831 | The first non-equivalent pair decides. A proper prefix is less, a proper extension greater, and equal-length equivalent sequences compare equivalent. |
| Comparison.LexCompareAntisymmetric | include/constexpr_containers/vector_base.h:820-831 | Swapping the operands flips the result whenever the element comparison does. |
| Comparison.LexCompareEquivalentIffEqual | include/constexpr_containers/vector_base.h:821-822 | Under a strong element ordering, the vectors compare equivalent exactly when they are equal. |
| Comparison.LexCompareLaws | include/constexpr_containers/vector_base.h:820-831 | The laws together, each under its own hypothesis: the first non-equivalent pair decides; with every common position equivalent, the shorter sequence is less, the longer greater, and equal lengths equivalent; an antisymmetric element comparison makes the result antisymmetric. |
| Comparison.SynthesizedAntisymmetric | include/constexpr_containers/vector_base.h:824-829 | The ordering synthesised from `<` gives an antisymmetric vector comparison when `<` is asymmetric. |
| Comparison.LexCompareUnorderedFromPair | include/constexpr_containers/vector_base.h:42-44 | For an element type whose `<=>` is a partial ordering, the vectors compare unordered only when the first non-equivalent pair of elements is unordered. |
| Comparison.LexCompareSynthesizedIsOrdered | include/constexpr_containers/vector_base.h:824-829 | The comparison built from `<` is never unordered: it is a weak ordering. |
| VectorBase.Vector.Size | include/constexpr_containers/vector_base.h:422 | size() is the number of live elements and never exceeds capacity(). |
| VectorBase.Vector.Capacity | include/constexpr_containers/vector_base.h:423 | The capacity is never below the size. |
| VectorBase.Vector.IsEmpty | include/constexpr_containers/vector_base.h:424 | empty() holds exactly when there are no elements. |
| VectorBase.Vector.Get | include/constexpr_containers/vector_base.h:380-393 | operator[] on an index below size() yields the element at that index. |
| VectorBase.Vector.CheckRange | include/constexpr_containers/vector_base.h:352-361 | Out of range exactly when n >= size(). |
| VectorBase.Vector.At | include/constexpr_containers/vector_base.h:364-378 | at(pos) yields the element exactly when pos < size(), and out_of_range otherwise. |
| VectorBase.Vector.Empty | include/constexpr_containers/vector_base.h:60-76 | No elements, no block, and the given allocator. |
| VectorBase.Vector.Filled | include/constexpr_containers/vector_base.h:78-98 | count copies of value in a block of exactly count slots. |
| VectorBase.Vector.FromInput | include/constexpr_containers/vector_base.h:100-112 | The elements of an input range, pushed back one by one. |
| VectorBase.Vector.FromRange | include/constexpr_containers/vector_base.h:114-126 | The range's elements in a block of exactly its length. An empty range allocates nothing. |
| VectorBase.Vector.FromList | include/simple/vector.h:101-109 | simple::vector's initializer-list constructor: the list's elements in a block of exactly its length. |
| VectorBase.Vector.Copy | include/constexpr_containers/vector_base.h:132-137 | other's elements and allocator, in a block of exactly size() slots. |
| VectorBase.Vector.CopyWithAllocator | include/constexpr_containers/vector_base.h:139-142 | other's elements with the given allocator. |
| VectorBase.Vector.Move | include/constexpr_containers/vector_base.h:148-157 | Takes over other's block and elements. other is left with no elements and no block. |
| VectorBase.Vector.MoveWithAllocator | include/constexpr_containers/vector_base.h:159-173 | Takes over other's block when the allocators compare equal. Otherwise moves the elements into a block of exactly their number, leaving other's block in place. |
| VectorBase.Vector.AssignFrom | include/constexpr_containers/vector_base.h:189-220 | The elements become the source's. A source larger than the capacity is built in a fresh block of exactly its size. A failure there leaves the elements and the block unchanged. |
| VectorBase.Vector.AssignInPlace | include/constexpr_containers/vector_base.h:204-220 | Within the capacity, the block is kept and the elements become the source's. |
| VectorBase.Vector.CopyAssign | include/constexpr_containers/vector_base.h:175-223 | Self-assignment changes nothing. Otherwise the elements become other's, and other is unchanged. With propagation the allocator is adopted and a differing allocator's block is freed first. Success, capacity and error are stated per case. |
| VectorBase.Vector.MoveAssign | include/constexpr_containers/vector_base.h:225-283 | Takes over other's block when the allocator propagates or the allocators are interchangeable, and which allocator results. Otherwise assigns element-wise, with the success, capacity and failure behaviour of AssignFrom. |
| VectorBase.Vector.AssignList | include/constexpr_containers/vector_base.h:285-320 | The elements become the list's, with the reallocation and failure behaviour of AssignFrom. |
| VectorBase.Vector.Swap | include/constexpr_containers/vector_base.h:322-338 | The blocks and elements are exchanged. The allocators are exchanged exactly when they propagate on swap. |
| VectorBase.Vector.AllocateTmp | include/constexpr_containers/vector_base.h:854-867 | A fresh block of n slots exactly when the allocator does not refuse. A refusal is reported as std::length_error exactly when n exceeds max_size(), and otherwise as the allocator's own failure. |
| VectorBase.Vector.Release | include/constexpr_containers/vector_base.h:869-877 | Destroys all elements and leaves no block. |
| VectorBase.Vector.Reserve | include/constexpr_containers/vector_base.h:439-456 | Does nothing if new_cap <= capacity(). Otherwise the capacity becomes exactly new_cap with the elements unchanged. On failure nothing changes. |
| VectorBase.Vector.ShrinkToFit | include/constexpr_containers/vector_base.h:458-476 | Afterwards capacity() == size() with the elements unchanged. On failure nothing changes. |
| VectorBase.Vector.Resize | include/constexpr_containers/vector_base.h:478-506 | The first count elements, padded with value-initialised ones. The capacity becomes exactly count when count exceeds it, otherwise stays. On failure nothing changes. |
| VectorBase.Vector.ResizeFill | include/constexpr_containers/vector_base.h:508-538 | As Resize, padding with copies of value. |
| VectorBase.Vector.MoveResized | include/constexpr_containers/vector_base.h:483-492 | The new block starts with the elements, followed by value-initialised ones up to count. |
| VectorBase.Vector.FillResized | include/constexpr_containers/vector_base.h:513-520 | The new block starts with the elements, followed by copies of value up to count. |
| VectorBase.Vector.Clear | include/constexpr_containers/vector_base.h:540-548 | No elements, and the block is kept. |
| VectorBase.Vector.EmplaceBack | include/constexpr_containers/vector_base.h:554-584 | v is appended. It keeps the block when there is room, else moves to a block of Grow(size()) slots. Fails exactly when the constructor throws, or the container is full and the allocator refuses. A failure leaves the block and the elements unchanged. |
| VectorBase.Vector.PushBack | include/constexpr_containers/vector_base.h:586-589 | Same as emplace_back. |
| VectorBase.ShiftBack | include/constexpr_containers/vector_base.h:733-734 | The slots from pos to the end move count slots back, and nothing before pos changes. |
| VectorBase.Fill | include/constexpr_containers/vector_base.h:736 | std::fill: the slots [from, to) hold the value and no other slot changes. |
| VectorBase.MoveDown | include/constexpr_containers/vector_base.h:791 | The elements after last move down onto first, in order, and nothing before first changes. |
| VectorBase.Vector.Emplace | include/constexpr_containers/vector_base.h:591-642 | v is inserted at pos and pos returned. The capacity follows emplace_back, and a container with room keeps its block. Fails exactly when emplace_back would. Unchanged on failure. |
| VectorBase.Vector.InsertN | include/constexpr_containers/vector_base.h:694-739 | count copies of value are inserted at pos and pos returned; count 0 changes nothing. The container reallocates to 2n+count exactly when n+count exceeds the capacity, and keeps its block otherwise. Unchanged on failure. |
| VectorBase.FillInserted | include/constexpr_containers/vector_base.h:706-729 | The new block holds the elements with count copies of value at pos. |
| VectorBase.Vector.FillInPlace | include/constexpr_containers/vector_base.h:731-737 | In the existing block, the elements with count copies of value at pos, the size advanced by count (the source does not advance it; see Findings). |
| VectorBase.Vector.Insert | include/constexpr_containers/vector_base.h:644-692 | value is inserted at pos and pos returned, with the capacity, block and failure behaviour of insert(pos, 1, value). |
| VectorBase.Vector.InsertRange | include/constexpr_containers/vector_base.h:741-759 | The range is inserted at pos in order, and the index after it is returned. With no allocator or constructor failure the whole range goes in. A failure happens only at an insertion that finds the block full; it reports that insertion's error, and the elements inserted before it stay. |
| VectorBase.Vector.InsertList | include/constexpr_containers/vector_base.h:761-766 | Same as InsertRange over the list: whole on a fault-free run, and a failure only at a full block with that insertion's error. |
| VectorBase.Vector.PopBack | include/constexpr_containers/vector_base.h:772-778 | Removes the last element and keeps the block. |
| VectorBase.Vector.EraseRange | include/constexpr_containers/vector_base.h:787-796 | The elements in [first, last) are removed, the rest keep their order, the block is kept, and first is returned. |
| VectorBase.Vector.Erase | include/constexpr_containers/vector_base.h:780-785 | The element at pos is removed. |
| VectorBase.Swap | include/constexpr_containers/vector_base.h:340-347 | The free swap is the member swap: the blocks and elements are exchanged, and the allocators exactly when they propagate on swap. |
| VectorBase.Equal | include/constexpr_containers/vector_base.h:802-809 | Equal exactly when the sizes match and the elements are pairwise equal, that is, when the element sequences are equal. |
| VectorBase.Compare | include/constexpr_containers/vector_base.h:811-831 | The first non-equivalent pair of elements decides. When every common position is equivalent, the shorter vector is less, the longer greater, and vectors of equal size equivalent. With an antisymmetric element comparison, exchanging the operands flips the result. |
| VectorBase.RemoveIf | include/constexpr_containers/vector_base.h:896 | The elements not matching move to the front in their original order, and their number is returned. |
| VectorBase.EraseIf | include/constexpr_containers/vector_base.h:891-900 | Exactly the matching elements are removed, the rest keep their order, and their number is returned. |
| VectorBase.EraseValue | include/constexpr_containers/vector_base.h:880-889 | Every element equal to value is removed, the rest keep their order, and the number removed is returned. |
| Findings.SimpleGrowAsWrittenHasNoSlotWhenEmpty | include/simple/vector.h:544-549 | As written, an empty simple::vector grows to 0 slots, while Flavor.Grow gives 1. |
| Findings.EmplaceBackAsWritten | include/constexpr_containers/vector_base.h:558-584 | emplace_back as it stands in either template: the fast path falls through into the reallocating path, which uses the template's as-written growth. |
| Findings.EmplaceBackAsWrittenAppendsTwice | include/constexpr_containers/vector_base.h:560-563 | With room, the as-written emplace_back appends the value twice and reallocates. |
| Findings.EmplaceBackAsWrittenExample | include/constexpr_containers/vector_base.h:560-572 | One free slot, push 7: the elements read [7, 7]. |
| Findings.EmplaceBackAsWrittenMainCopies | include/simple/vector.h:538-557 | f() of test/main.cc as written: emplace_back(2) with room appends 2 twice in a block of 24, so v2 ends with 12 elements, the last being 2. |
| Findings.ResizeInPlaceAsWrittenDoesNotGrow | include/constexpr_containers/vector_base.h:497-500 | Growing within the capacity, by resize(count) or by resize(count, value) (lines 529-532), leaves the size as it was. |
| Findings.ResizeFillReallocAsWrittenKeepsSize | include/constexpr_containers/vector_base.h:513-522 | Growing past the capacity as written keeps the old elements and size, not count. |
| Findings.MoveAssignFreesThroughAsWrittenWrongAllocator | include/constexpr_containers/vector_base.h:231-235 | When the propagating branch replaces the allocator, the old block is freed through an allocator that is not interchangeable with the one that supplied it. |
| Findings.MoveAssignFreesThroughAsWrittenExample | include/constexpr_containers/vector_base.h:231-235 | Allocators 1 and 2 of a propagating, not always-equal type: the block from 1 is freed through 2. |
| Findings.InsertNAtEndAsWrittenDropsCopies | include/constexpr_containers/vector_base.h:699-702 | insert(end(), count >= 2, value) inserts fewer than count copies. |
| Findings.InsertReallocatesAsWrittenInverted | include/constexpr_containers/vector_base.h:704 | The realloc test picks the in-place path for a full block and reallocates when there is room. |
| Findings.MoveBackward | include/constexpr_containers/vector_base.h:637-638 | The backward helpers as their names say: [first, last) ends up in the slots ending at dstEnd, and every other slot is unchanged. |
| Findings.EmplaceInPlaceAsWrittenLosesLast | include/constexpr_containers/vector_base.h:628-641 | [1, 2, 3] with room, 9 emplaced at the front, reads [9, 1, 2] instead of [9, 1, 2, 3]. |
| Findings.InsertNInPlaceAsWrittenLosesTail | include/constexpr_containers/vector_base.h:731-737 | [1, 2, 3] in a block of five, two 9s inserted at the front: the as-written test takes the in-place branch, the slots hold [9, 9, 1, 2, 3] and the container reads [9, 9, 1] instead of [9, 9, 1, 2, 3]. |
| Findings.MoveForward | include/simple/vector.h:614 | A front-to-back move: every slot outside the destination is unchanged, and the destination receives the source exactly when the move does not overlap it from behind. |
| Findings.SimpleEmplaceInPlaceAsWrittenSmears | include/simple/vector.h:604-617 | The same on simple::vector reads [9, 1, 1]. |
| Scenarios.GrowthFromEmpty | include/constexpr_containers/vector_base.h:554-584 | With emplace_back's missing return corrected, three push_backs onto an empty container give capacities 0, 1, 3, 3 and the elements [1, 2, 3]. |
| Scenarios.HelloSum | test/hello.cc:7-12 | {1, 2} then push_back(3): the elements sum to 6. |
| Scenarios.MainCopies | test/main.cc:7-16 | Replaying f() on simple::vector with emplace_back's missing return corrected: v2 = v holds 11 elements, the last being 1. The code as written gives 12, ending in 2 (see Findings). |
| Scenarios.ZipAdds | include/constexpr_containers/algorithm.h:57-69 | zip_transform with + over {1,2,3} and {10,20,30} gives {11,22,33}. |
| Scenarios.EraseEvens | include/constexpr_containers/vector_base.h:891-900 | erase_if(even) on {1..5} removes 2 and keeps {1,3,5}. |
| Scenarios.EvensOfOneToFive | include/constexpr_containers/vector_base.h:896-898 | What remove_if keeps of {1..5} and what it counts. |
| Scenarios.AtBounds | include/constexpr_containers/vector_base.h:364-378 | at(size()) is out_of_range, and at(size()-1) is the last element. |
| Scenarios.StrongGuarantee | include/constexpr_containers/vector_base.h:565-578 | A refused reallocating push_back reports bad_alloc and leaves the elements as they were. |
| Scenarios.InsertThenErase | include/constexpr_containers/vector_base.h:694-796 | insert(pos, 2, 9) followed by erase(pos, pos+2) restores {1,2,3}. |
| Scenarios.InsertRangeWhole | include/constexpr_containers/vector_base.h:741-759 | With nothing failing, inserting [7, 8] at index 1 of [1, 2] gives [1, 7, 8, 2] and returns index 3. |

## Left out

- Destruction (`~vector_base`) and freeing: memory is garbage-collected, so a freed block is a dropped reference.
- Leaked elements: some paths free the old block without destroying its elements. In vector_base.h these are the reallocating paths of copy assignment (line 198), emplace_back (580), emplace (621) and insert (678, 724); simple/vector.h has the same. That leak is not observable here.
- `max_size()` is not computed from `difference_type` and the allocator. It is an opaque bound carried by `Kind`.
- `allocate_tmp` takes an allocation hint, which the model drops.
- `get_allocator`, `data`, `front`, `back`, the iterator accessors and the reverse iterators are not modelled as members. `Contents()`, `Get` and `alloc` expose the same state.
- Reverse iterators: `simple::vector` builds `rbegin` from `m_begin` and `rend` from `m_end`, the reverse of vector_base. Reverse iteration is not part of this model.
- Constructors are modelled with allocation always succeeding. A throwing constructor leaves no object to reason about.
- The count-only constructor is `Filled` with the value-initialised element passed as `value`.
- `VectorBase.Vector.AssignFrom`, `Resize`, `ResizeFill`, `InsertN`, `Emplace`: in-place paths do not model an element assignment or move that throws. The source gives only the basic guarantee there, and the model treats those steps as not failing.
- `VectorBase.Vector.MoveAssign`: self move-assignment is excluded by its precondition. The source frees its own block and then adopts it, which is undefined.
- `VectorBase.Vector.CopyAssign`: binary operations require the two containers not to share a block unless they are the same object. Each container owns its block.
- `VectorBase.Vector.Insert`: the rvalue overload of `insert(pos, value)` is not a separate member. Once its inverted realloc test is corrected, it computes the same as `Emplace` with the vector_base growth rule.
- `VectorBase.Vector.InsertN`, `InsertRange`, `EraseRange`, `Erase`, `EraseIf`, `EraseValue` require `kind.flavor == Base`. `simple::vector` has no insert or erase. `FromRange` and `FromInput` require it too, because `simple::vector` has no iterator-range constructor.
- `VectorBase.Compare`: the strong-ordering law (equivalent exactly when equal) is not part of its contract, because that needs `==` on the element type. It is `Comparison.LexCompareEquivalentIffEqual` over `Contents()`.
- `VectorBase.Vector.InsertN`, `Insert`, `Emplace`, `EmplaceBack`: size_type arithmetic is unbounded (vector_base.h lines 567, 607, 664, 708). The source's `size() * 2 + count` and `size() * 2 + 1` wrap modulo 2^64 for sizes near SIZE_MAX, while the model asks for the unwrapped capacity.
- `VectorBase.Vector.AllocateTmp`: whether the allocator refuses is the `fails` input, whatever n is. So a request above max_size() may succeed, for example `Reserve(maxSize + 1, NoFault)`. The source reports std::length_error only when the allocator throws, and std::allocator throws there; the model does not tie the two together.
- `VectorBase.Vector.MoveAssign`: ownership is tracked by the ghost `owner` only. Freeing a block through the wrong allocator is ruled out by `Valid()`, not modelled as an effect.
- `VectorBase.Vector.CopyAssign`: on the propagating branch with unequal allocators, the source's deallocate() (vector_base.h:869-877) frees the block but leaves m_begin and m_realend pointing at it. The code after it then sees the old capacity, and either writes into the freed block or frees it again. The model resets the container to no block, so it promises the evidently intended behaviour rather than what the code does.
- `VectorBase.Compare`: an unordered comparison is modelled as the `Unordered` result of the element comparison. Which element values yield it (a NaN `double`, say) is left to that comparison.
- `Algorithm.ZipTransform` and `Algorithm.ZipForeach`: the variadic secondary ranges are modelled as exactly one secondary range.
- `Algorithm.ZipForeach`: op's side effects are modelled as a state it threads.
- `h()` of test/main.cc uses `simple::zip_transform` with `std::back_inserter`. simple/container_algorithm.h is not part of this model.
- Several source constructs would not compile once instantiated, or fall off the end of a function that returns a value. The model does what they evidently mean, with a `// Source:` comment at each:
  - `at()` returns `*this[pos]`;
  - `allocate(...)` is called without the allocator argument in both allocator-extended move constructors, and in simple::vector's `vector(count, value)` (simple/vector.h line 83) and initializer-list constructor (line 104);
  - `AllocTraitsT::deallocate(tmp)` takes one argument;
  - `allocate_empty` does not exist;
  - `pos = std::move(value)` assigns to an iterator;
  - `insert(pos, value)`, `insert(pos, 0, value)` and `operator=(initializer_list)` have missing returns;
  - `move_if_noexcept_launder` and the `_backward` helpers are not defined in algorithm.h.

## Findings

| source | as written | input that shows it | evidently intended | confidence | as-written member | corrected member |
|---|---|---|---|---|---|---|
| include/simple/vector.h:544-549 | `newcap = size() * 2` | an empty simple::vector, push_back(x): a block of 0 slots, x constructed at slot 0 | a slot for the new element: 1 when empty | not executed | Findings.SimpleGrowAsWrittenHasNoSlotWhenEmpty | Allocation.Flavor.Grow |
| include/constexpr_containers/vector_base.h:560-563 | no `return` after the fast path of emplace_back | capacity 1, no elements, push_back(7): reads [7, 7] | return after constructing into the free slot | not executed | Findings.EmplaceBackAsWrittenAppendsTwice | VectorBase.Vector.EmplaceBack |
| include/simple/vector.h:538-541 | the same missing `return` in simple::vector's emplace_back | f() of test/main.cc: v holds 11 elements in 20 slots, emplace_back(2) gives [0 ×10, 1, 2, 2], so after pop_back v2 = v holds 12 elements ending in 2 | v2 holds 11 elements ending in 1 | not executed | Findings.EmplaceBackAsWrittenMainCopies | VectorBase.Vector.EmplaceBack |
| include/constexpr_containers/vector_base.h:231-235 | `m_alloc = other.m_alloc;` before `deallocate();` in move assignment (also include/simple/vector.h:216-220) | an allocator type that propagates on move assignment and is not always equal, allocators 1 and 2 that compare unequal: the block from 1 is freed through 2 | free the old block before replacing m_alloc | not executed | Findings.MoveAssignFreesThroughAsWrittenWrongAllocator | VectorBase.Vector.MoveAssign |
| include/constexpr_containers/vector_base.h:497-500 | `while (size() > count) emplace_back();` inside `count > size()` | reserve(2) then resize(2): still no elements | `while (size() < count)` | not executed | Findings.ResizeInPlaceAsWrittenDoesNotGrow | VectorBase.Vector.Resize |
| include/constexpr_containers/vector_base.h:529-532 | `while (size() > count) emplace_back(value);` inside `count > size()` | reserve(2) then resize(2, 7): still no elements | `while (size() < count)` | not executed | Findings.ResizeInPlaceAsWrittenDoesNotGrow | VectorBase.Vector.ResizeFill |
| include/constexpr_containers/vector_base.h:518-522 | `end = uninitialized_move_if_noexcept_launder(...)` then `m_end = end` | one element, capacity 1, resize(3, 7): size stays 1 | `m_end = tmp + count` | not executed | Findings.ResizeFillReallocAsWrittenKeepsSize | VectorBase.Vector.ResizeFill |
| include/constexpr_containers/vector_base.h:699-702 | `pos == end` emplaces one copy whatever count is | insert(end(), 2, v) adds one element | count copies at the end | not executed | Findings.InsertNAtEndAsWrittenDropsCopies | VectorBase.Vector.InsertN |
| include/constexpr_containers/vector_base.h:704 | `if (m_end + count < m_realend) // We need to realloc` | one element, capacity 1, insert(begin(), 1, 9): in-place shift writes slot 1 of a 1-slot block | reallocate when size() + count > capacity() | not executed | Findings.InsertReallocatesAsWrittenInverted | VectorBase.Vector.InsertN |
| include/constexpr_containers/vector_base.h:628-641 | in-place emplace shifts and assigns but never advances `m_end` | [1, 2, 3] with capacity 4, emplace(begin(), 9): reads [9, 1, 2] | `++m_end` | not executed | Findings.EmplaceInPlaceAsWrittenLosesLast | VectorBase.Vector.Emplace |
| include/constexpr_containers/vector_base.h:731-737 | in-place insert(pos, count, value) shifts and fills but never advances `m_end`; insert(pos, T&&) does the same at lines 685-691 | [1, 2, 3] with capacity 5, insert(begin(), 2, 9): reads [9, 9, 1] | `m_end += count` | not executed | Findings.InsertNInPlaceAsWrittenLosesTail | VectorBase.Vector.InsertN |
| include/simple/vector.h:612-617 | tail moved forward with `move_if_noexcept_launder(pos, m_end - 1, pos + 1)` | [1, 2, 3] with capacity 4, emplace(begin(), 9): reads [9, 1, 1] | a backward move, then `++m_end` | not executed | Findings.SimpleEmplaceInPlaceAsWrittenSmears | VectorBase.Vector.Emplace |

=== FILE: algorithm.dfy ===
/** The leaf algorithms the container is built on. Source ranges are sequences (what the
    source iterators read); destinations are arrays with a start position (raw slots of
    a block), and the position one past the last slot written is returned. Constructing
    an element through the allocator is writing the slot, and std::launder is the
    identity, so each `_launder` variant is its counterpart. */
module Algorithm {

  /** The view make_range returns: the positions [begin, end) of one buffer. */
  datatype Range = Range(begin: nat, end: nat)

  /** make_range(begin, end): a view that a range-based for loop walks from begin up to,
      not including, end. */
  function MakeRange(b: nat, e: nat): (r: Range)
    ensures r.begin == b && r.end == e
    ensures b <= e ==> |Positions(r)| == e - b && forall k | 0 <= k < e - b :: Positions(r)[k] == b + k
  {
    Range(b, e)
  }

  /** The positions a range-based for loop over r visits, in order. */
  function Positions(r: Range): (ps: seq<nat>)
    requires r.begin <= r.end
    ensures |ps| == r.end - r.begin
    ensures forall k | 0 <= k < |ps| :: ps[k] == r.begin + k
    decreases r.end - r.begin
  {
    if r.begin == r.end then [] else [r.begin] + Positions(Range(r.begin + 1, r.end))
  }

  /** zip_transform with one secondary range: dst[d + i] := op(fst[i], rest[i]) for every
      i < |fst|. The secondary range must be at least as long as the first; the source
      does not check this. */
  method ZipTransform<A, B, C>(fst: seq<A>, dst: array<C>, d: nat, op: (A, B) -> C, rest: seq<B>)
    returns (e: nat)
    requires |fst| <= |rest|
    requires d + |fst| <= dst.Length
    modifies dst
    ensures e == d + |fst|
    ensures forall i | 0 <= i < |fst| :: dst[d + i] == op(fst[i], rest[i])
    ensures forall j | 0 <= j < dst.Length && !(d <= j < e) :: dst[j] == old(dst[j])
  {
    e := d;
    var i := 0;
    while i < |fst|
      invariant 0 <= i <= |fst| && e == d + i
      invariant forall k | 0 <= k < i :: dst[d + k] == op(fst[k], rest[k])
      invariant forall j | 0 <= j < dst.Length && !(d <= j < e) :: dst[j] == old(dst[j])
    {
      dst[e] := op(fst[i], rest[i]);
      i, e := i + 1, e + 1;
    }
  }

  /** The state reached by applying op to s and each pair (fst[i], rest[i]) in turn. */
  function ZipFold<A, B, S>(op: (S, A, B) -> S, s: S, fst: seq<A>, rest: seq<B>): S
    requires |fst| <= |rest|
    decreases |fst|
  {
    if |fst| == 0 then s else ZipFold(op, op(s, fst[0], rest[0]), fst[1..], rest[1..])
  }

  /** zip_foreach with one secondary range. The effect of op is a state it updates; the
      algorithm writes nothing else. */
  method ZipForeach<A, B, S>(fst: seq<A>, op: (S, A, B) -> S, s0: S, rest: seq<B>) returns (s: S)
    requires |fst| <= |rest|
    ensures s == ZipFold(op, s0, fst, rest)
  {
    s := s0;
    var i := 0;
    while i < |fst|
      invariant 0 <= i <= |fst|
      invariant ZipFold(op, s, fst[i..], rest[i..]) == ZipFold(op, s0, fst, rest)
    {
      assert fst[i..][1..] == fst[i + 1..] && rest[i..][1..] == rest[i + 1..];
      s := op(s, fst[i], rest[i]);
      i := i + 1;
    }
  }

  /** An operation that records the arguments it is called with. */
  function Record<A, B>(log: seq<(A, B)>, a: A, b: B): seq<(A, B)> {
    log + [(a, b)]
  }

  /** zip_foreach calls op exactly once per index of the first range, in increasing
      index order: a recording op ends with exactly the pairs (fst[i], rest[i]). */
  lemma {:induction false} ZipFoldVisitsEachIndexInOrder<A, B>(log: seq<(A, B)>, fst: seq<A>, rest: seq<B>)
    requires |fst| <= |rest|
    ensures |ZipFold(Record, log, fst, rest)| == |log| + |fst|
    ensures ZipFold(Record, log, fst, rest)[..|log|] == log
    ensures forall i | 0 <= i < |fst| :: ZipFold(Record, log, fst, rest)[|log| + i] == (fst[i], rest[i])
    decreases |fst|
  {
    if |fst| > 0 {
      var log' := Record(log, fst[0], rest[0]);
      ZipFoldVisitsEachIndexInOrder(log', fst[1..], rest[1..]);
      var r := ZipFold(Record, log, fst, rest);
      assert r == ZipFold(Record, log', fst[1..], rest[1..]);
      assert r[..|log|] == r[..|log'|][..|log|];
      forall i | 0 <= i < |fst|
        ensures r[|log| + i] == (fst[i], rest[i])
      {
        if i > 0 {
          assert r[|log'| + (i - 1)] == (fst[1..][i - 1], rest[1..][i - 1]);
        } else {
          assert r[..|log'|][|log|] == log'[|log|];
        }
      }
    }
  }

  /** uninitialized_copy: constructs dst[d + i] from src[i]; no slot outside
      [d, d + |src|) is touched. */
  method UninitializedCopy<T>(src: seq<T>, dst: array<T>, d: nat) returns (e: nat)
    requires d + |src| <= dst.Length
    modifies dst
    ensures e == d + |src|
    ensures dst[d..e] == src
    ensures dst[..d] == old(dst[..d]) && dst[e..] == old(dst[e..])
  {
    e := d;
    var i := 0;
    while i < |src|
      invariant 0 <= i <= |src| && e == d + i
      invariant dst[d..e] == src[..i]
      invariant forall j | 0 <= j < dst.Length && !(d <= j < e) :: dst[j] == old(dst[j])
    {
      dst[e] := src[i];
      i, e := i + 1, e + 1;
    }
    assert src[..i] == src;
  }

  /** uninitialized_move: the same slots as uninitialized_copy; what a moved-from source
      element holds is unspecified, and the model leaves it as it was. */
  method UninitializedMove<T>(src: seq<T>, dst: array<T>, d: nat) returns (e: nat)
    requires d + |src| <= dst.Length
    modifies dst
    ensures e == d + |src|
    ensures dst[d..e] == src
    ensures dst[..d] == old(dst[..d]) && dst[e..] == old(dst[e..])
  {
    e := UninitializedCopy(src, dst, d);
  }

  /** uninitialized_move_if_noexcept: moves or copies; the slots written are the same. */
  method UninitializedMoveIfNoexcept<T>(src: seq<T>, dst: array<T>, d: nat) returns (e: nat)
    requires d + |src| <= dst.Length
    modifies dst
    ensures e == d + |src|
    ensures dst[d..e] == src
    ensures dst[..d] == old(dst[..d]) && dst[e..] == old(dst[e..])
  {
    e := UninitializedCopy(src, dst, d);
  }

  method UninitializedCopyLaunder<T>(src: seq<T>, dst: array<T>, d: nat) returns (e: nat)
    requires d + |src| <= dst.Length
    modifies dst
    ensures e == d + |src|
    ensures dst[d..e] == src
    ensures dst[..d] == old(dst[..d]) && dst[e..] == old(dst[e..])
  {
    e := UninitializedCopy(src, dst, d);
  }

  method UninitializedMoveLaunder<T>(src: seq<T>, dst: array<T>, d: nat) returns (e: nat)
    requires d + |src| <= dst.Length
    modifies dst
    ensures e == d + |src|
    ensures dst[d..e] == src
    ensures dst[..d] == old(dst[..d]) && dst[e..] == old(dst[e..])
  {
    e := UninitializedMove(src, dst, d);
  }

  method UninitializedMoveIfNoexceptLaunder<T>(src: seq<T>, dst: array<T>, d: nat) returns (e: nat)
    requires d + |src| <= dst.Length
    modifies dst
    ensures e == d + |src|
    ensures dst[d..e] == src
    ensures dst[..d] == old(dst[..d]) && dst[e..] == old(dst[e..])
  {
    e := UninitializedMoveIfNoexcept(src, dst, d);
  }
}

=== FILE: allocation.dfy ===
/** The allocation strategy a container is parameterised with, as the container sees it:
    an opaque allocator value compared with `==`, the allocator_traits flags of its type,
    an opaque max_size() bound, and the outcome of the requests the container makes. */
module Allocation {

  /** An allocator value. Only its identity matters: two values denote the same memory
      resource exactly when they are equal. */
  datatype Allocator = Allocator(resource: nat)

  /** The allocator_traits flags of one allocator type. */
  datatype AllocTraits = AllocTraits(
    propagateOnCopy: bool,  // propagate_on_container_copy_assignment
    propagateOnMove: bool,  // propagate_on_container_move_assignment
    propagateOnSwap: bool,  // propagate_on_container_swap
    alwaysEqual: bool)      // is_always_equal

  /** The flags of std::allocator: moves propagate and all instances compare equal. */
  const StdAllocatorTraits := AllocTraits(false, true, false, true)

  /** `a == b` for two allocators of a type with traits t. */
  predicate Interchangeable(t: AllocTraits, a: Allocator, b: Allocator) {
    t.alwaysEqual || a == b
  }

  /** The two container templates, which differ in how far a full container grows. */
  datatype Flavor = Base | Simple {

    /** The capacity emplace_back and emplace allocate when n elements fill the block. */
    function Grow(n: nat): (cap: nat)
      ensures n < cap            // the new element always has a slot
      ensures cap <= 2 * n + 1   // never more than twice the size, plus one
      ensures n > 0 ==> 2 * n <= cap
    {
      match this
      case Base => 2 * n + 1
      // simple::vector allocates 2 * size(), which is no slot at all for an empty
      // container; the model gives that case one slot (see Findings)
      case Simple => if n == 0 then 1 else 2 * n
    }
  }

  /** What one instantiation of a container template fixes: the template, the traits of
      its allocator type, and max_size(), taken as an opaque bound. */
  datatype Kind = Kind(flavor: Flavor, traits: AllocTraits, maxSize: nat)

  /** What the environment does during one operation: whether the allocator refuses the
      block the operation asks for, and whether constructing an element throws. */
  datatype Env = Env(allocFails: bool, ctorFails: bool)

  /** An environment in which nothing fails. */
  const NoFault := Env(false, false)

  /** The failures an operation reports: std::out_of_range, std::length_error, the
      allocator's own exception (propagated unchanged), an element constructor's exception. */
  datatype Error = OutOfRange | LengthError | BadAlloc | ElementError

  datatype Status = Ok | Err(error: Error)

  datatype Result<T> = Success(value: T) | Failure(error: Error)

  /** What allocate() and allocate_tmp() rethrow when the allocator fails on a request for
      n elements: std::length_error if n exceeds max_size(), else the allocator's own. */
  function AllocationError(n: nat, maxSize: nat): Error {
    if n > maxSize then LengthError else BadAlloc
  }
}

=== FILE: comparison.dfy ===
/** Equality and three-way comparison of element sequences, as the container's `==` and
    `<=>` compute them. */
module Comparison {

  /** The result of a three-way comparison: std::strong_ordering, std::weak_ordering, or
      std::partial_ordering, whose Unordered an element type such as double yields when
      neither operand is below the other nor equivalent to it. */
  datatype Ordering = Less | Equivalent | Greater | Unordered {

    /** The result with the operands exchanged. */
    function Flip(): Ordering {
      match this
      case Less => Greater
      case Equivalent => Equivalent
      case Greater => Less
      case Unordered => Unordered
    }
  }

  /** std::equal over two ranges: the lengths match and the elements are pairwise equal. */
  function PairwiseEqual<T(==)>(a: seq<T>, b: seq<T>): (r: bool)
    ensures r <==> |a| == |b| && forall i | 0 <= i < |a| :: a[i] == b[i]
    ensures r <==> a == b
    decreases |a|
  {
    if |a| != |b| then false
    else if |a| == 0 then true
    else a[0] == b[0] && PairwiseEqual(a[1..], b[1..])
  }

  /** std::lexicographical_compare_three_way with the element comparison cmp: the first
      pair that is not equivalent decides; otherwise the shorter sequence is less. */
  function LexCompare<T>(a: seq<T>, b: seq<T>, cmp: (T, T) -> Ordering): Ordering
    decreases |a|
  {
    if |a| == 0 || |b| == 0 then
      (if |a| == |b| then Equivalent else if |a| == 0 then Less else Greater)
    else
      var c := cmp(a[0], b[0]);
      if c != Equivalent then c else LexCompare(a[1..], b[1..], cmp)
  }

  /** The ordering `<=>` synthesises for an element type that has only `<`. */
  function Synthesized<T>(lt: (T, T) -> bool, x: T, y: T): Ordering {
    if lt(x, y) then Less else if lt(y, x) then Greater else Equivalent
  }

  /** An unordered result comes only from an unordered pair of elements, at the first
      position whose elements are not equivalent. */
  lemma {:induction false} LexCompareUnorderedFromPair<T>(a: seq<T>, b: seq<T>, cmp: (T, T) -> Ordering)
    requires LexCompare(a, b, cmp) == Unordered
    ensures exists k | 0 <= k < |a| && k < |b| ::
              (forall i | 0 <= i < k :: cmp(a[i], b[i]) == Equivalent) && cmp(a[k], b[k]) == Unordered
    decreases |a|
  {
    if cmp(a[0], b[0]) != Unordered {
      LexCompareUnorderedFromPair(a[1..], b[1..], cmp);
      var k :| 0 <= k < |a| - 1 && k < |b| - 1 &&
               (forall i | 0 <= i < k :: cmp(a[1..][i], b[1..][i]) == Equivalent) && cmp(a[1..][k], b[1..][k]) == Unordered;
      assert forall i | 0 <= i < k + 1 :: cmp(a[i], b[i]) == Equivalent by {
        forall i | 0 < i < k + 1 ensures cmp(a[i], b[i]) == Equivalent {
          assert a[i] == a[1..][i - 1] && b[i] == b[1..][i - 1];
        }
      }
      assert cmp(a[k + 1], b[k + 1]) == Unordered;
    }
  }

  /** The ordering synthesised from `<` is never Unordered, so a vector of such elements
      compares as a weak ordering. */
  lemma {:induction false} LexCompareSynthesizedIsOrdered<T>(lt: (T, T) -> bool, a: seq<T>, b: seq<T>)
    ensures LexCompare(a, b, (x, y) => Synthesized(lt, x, y)) != Unordered
  {
    if LexCompare(a, b, (x, y) => Synthesized(lt, x, y)) == Unordered {
      LexCompareUnorderedFromPair(a, b, (x, y) => Synthesized(lt, x, y));
    }
  }

  /** Positions on which the two sequences compare equivalent do not decide the result:
      the comparison continues with what follows them. */
  lemma {:induction false} LexCompareSkipsEquivalentPrefix<T>(a: seq<T>, b: seq<T>, cmp: (T, T) -> Ordering, k: nat)
    requires k <= |a| && k <= |b|
    requires forall i | 0 <= i < k :: cmp(a[i], b[i]) == Equivalent
    ensures LexCompare(a, b, cmp) == LexCompare(a[k..], b[k..], cmp)
    decreases k
  {
    if k > 0 {
      LexCompareSkipsEquivalentPrefix(a[1..], b[1..], cmp, k - 1);
      assert a[1..][k - 1..] == a[k..] && b[1..][k - 1..] == b[k..];
    }
  }

  /** The first position whose elements are not equivalent decides the comparison; a
      sequence that runs out first is less. */
  lemma LexCompareFirstDifference<T>(a: seq<T>, b: seq<T>, cmp: (T, T) -> Ordering, k: nat)
    requires k <= |a| && k <= |b|
    requires forall i | 0 <= i < k :: cmp(a[i], b[i]) == Equivalent
    ensures k < |a| && k < |b| && cmp(a[k], b[k]) != Equivalent ==> LexCompare(a, b, cmp) == cmp(a[k], b[k])
    ensures k == |a| < |b| ==> LexCompare(a, b, cmp) == Less
    ensures k == |b| < |a| ==> LexCompare(a, b, cmp) == Greater
    ensures k == |a| == |b| ==> LexCompare(a, b, cmp) == Equivalent
  {
    LexCompareSkipsEquivalentPrefix(a, b, cmp, k);
  }

  /** Exchanging the operands flips the result when the element comparison does. */
  lemma {:induction false} LexCompareAntisymmetric<T>(a: seq<T>, b: seq<T>, cmp: (T, T) -> Ordering)
    requires forall x, y :: cmp(x, y) == cmp(y, x).Flip()
    ensures LexCompare(a, b, cmp) == LexCompare(b, a, cmp).Flip()
    decreases |a|
  {
    if |a| > 0 && |b| > 0 {
      assert cmp(a[0], b[0]) == cmp(b[0], a[0]).Flip();
      if cmp(a[0], b[0]) == Equivalent {
        LexCompareAntisymmetric(a[1..], b[1..], cmp);
      }
    }
  }

  /** With an element comparison that is equivalent only on equal elements (a strong
      ordering), the sequences compare equivalent iff they are equal. */
  lemma {:induction false} LexCompareEquivalentIffEqual<T>(a: seq<T>, b: seq<T>, cmp: (T, T) -> Ordering)
    requires forall x, y :: cmp(x, y) == Equivalent <==> x == y
    ensures LexCompare(a, b, cmp) == Equivalent <==> a == b
    decreases |a|
  {
    if |a| > 0 && |b| > 0 {
      if cmp(a[0], b[0]) == Equivalent {
        LexCompareEquivalentIffEqual(a[1..], b[1..], cmp);
        assert a == [a[0]] + a[1..] && b == [b[0]] + b[1..];
      } else {
        assert a[0] != b[0];
      }
    } else if |a| != |b| {
      assert |a| == 0 || |b| == 0;
    }
  }

  /** The laws of the three-way comparison, each under the hypothesis it needs: the
      first non-equivalent pair decides; when every common position is equivalent the
      shorter sequence is less and equal lengths are equivalent; and an antisymmetric
      element comparison makes the result antisymmetric. */
  lemma LexCompareLaws<T>(a: seq<T>, b: seq<T>, cmp: (T, T) -> Ordering)
    ensures forall k | 0 <= k < |a| && k < |b| ::
              (forall i | 0 <= i < k :: cmp(a[i], b[i]) == Equivalent) && cmp(a[k], b[k]) != Equivalent
              ==> LexCompare(a, b, cmp) == cmp(a[k], b[k])
    ensures |a| < |b| && (forall i | 0 <= i < |a| :: cmp(a[i], b[i]) == Equivalent) ==> LexCompare(a, b, cmp) == Less
    ensures |b| < |a| && (forall i | 0 <= i < |b| :: cmp(a[i], b[i]) == Equivalent) ==> LexCompare(a, b, cmp) == Greater
    ensures |a| == |b| && (forall i | 0 <= i < |a| :: cmp(a[i], b[i]) == Equivalent) ==> LexCompare(a, b, cmp) == Equivalent
    ensures (forall x, y :: cmp(x, y) == cmp(y, x).Flip()) ==> LexCompare(a, b, cmp) == LexCompare(b, a, cmp).Flip()
  {
    forall k | 0 <= k < |a| && k < |b| && (forall i | 0 <= i < k :: cmp(a[i], b[i]) == Equivalent)
      ensures LexCompare(a, b, cmp) == cmp(a[k], b[k]) || cmp(a[k], b[k]) == Equivalent
    {
      LexCompareFirstDifference(a, b, cmp, k);
    }
    if |a| <= |b| && (forall i | 0 <= i < |a| :: cmp(a[i], b[i]) == Equivalent) {
      LexCompareFirstDifference(a, b, cmp, |a|);
    }
    if |b| < |a| && (forall i | 0 <= i < |b| :: cmp(a[i], b[i]) == Equivalent) {
      LexCompareFirstDifference(a, b, cmp, |b|);
    }
    if forall x, y :: cmp(x, y) == cmp(y, x).Flip() {
      LexCompareAntisymmetric(a, b, cmp);
    }
  }

  /** The synthesised ordering is antisymmetric when `<` is asymmetric, so the
      lexicographic comparison built on it is too. */
  lemma SynthesizedAntisymmetric<T>(lt: (T, T) -> bool, a: seq<T>, b: seq<T>)
    requires forall x, y :: lt(x, y) ==> !lt(y, x)
    ensures LexCompare(a, b, (x, y) => Synthesized(lt, x, y))
            == LexCompare(b, a, (x, y) => Synthesized(lt, x, y)).Flip()
  {
    var cmp := (x, y) => Synthesized(lt, x, y);
    assert forall x, y :: cmp(x, y) == cmp(y, x).Flip();
    LexCompareAntisymmetric(a, b, cmp);
  }
}

=== FILE: findings.dfy ===
/** The container's code where it does what it evidently was not meant to, written out
    as it stands, with an input that shows the difference. VectorBase models the
    intended behaviour of each; the lemma there or here that states it is named beside
    each as-written member. */
module Findings {
  import opened Allocation
  import opened SequenceModel

  /** A block as the code leaves it: every slot, including raw ones past the end, and
      the number of live elements. */
  datatype Block<T> = Block(slots: seq<T>, size: nat) {
    predicate Valid() {
      size <= |slots|
    }

    function Contents(): seq<T>
      requires Valid()
    {
      slots[..size]
    }
  }

  ////////////////////////////////////////////////////////////////
  // simple::vector grows a full container to 2 * size() slots  //
  ////////////////////////////////////////////////////////////////

  /** newcap in simple::vector's emplace_back and emplace. */
  function SimpleGrowAsWritten(n: nat): nat {
    2 * n
  }

  /** An empty simple::vector gets a block of no slots, and the new element is then
      constructed at tmp + 0, outside it. Flavor.Grow gives that case one slot. */
  lemma SimpleGrowAsWrittenHasNoSlotWhenEmpty()
    ensures !(0 < SimpleGrowAsWritten(0))
    ensures 0 < Simple.Grow(0)
  {
  }

  ///////////////////////////////////////////////////////////
  // emplace_back falls through from the fast path         //
  ///////////////////////////////////////////////////////////

  /** The capacity emplace_back asks for as written when n elements fill the block:
      2 * size() + 1 in vector_base, 2 * size() in simple::vector. */
  function GrowAsWritten(f: Flavor, n: nat): nat {
    match f
    case Base => 2 * n + 1
    case Simple => SimpleGrowAsWritten(n)
  }

  /** emplace_back(x) as written, in either template: with a free slot, x is constructed
      there, and then, there being no return, the reallocating path runs as well and
      constructs x a second time after the (now one longer) elements. The raw slots of
      the new block are shown holding x. An empty, full simple::vector is left out: it
      constructs x outside a block of no slots (see SimpleGrowAsWritten). */
  function EmplaceBackAsWritten<T>(f: Flavor, b: Block<T>, x: T): (r: Block<T>)
    requires b.Valid()
    requires f == Simple && b.size == |b.slots| ==> b.size > 0
    ensures r.Valid()
  {
    var b1 := if b.size < |b.slots| then Block(b.slots[b.size := x], b.size + 1) else b;
    var oldsize := b1.size;
    Block(b1.slots[..oldsize] + [x] + Repeat(x, GrowAsWritten(f, oldsize) - oldsize - 1), oldsize + 1)
  }

  /** With room for x, the as-written emplace_back appends x twice and reallocates to the
      growth of the one-longer size; Vector.EmplaceBack appends it once and keeps the
      block. */
  lemma EmplaceBackAsWrittenAppendsTwice<T>(f: Flavor, b: Block<T>, x: T)
    requires b.Valid() && b.size < |b.slots|
    ensures EmplaceBackAsWritten(f, b, x).Contents() == b.Contents() + [x, x]
    ensures |EmplaceBackAsWritten(f, b, x).slots| == GrowAsWritten(f, b.size + 1)
  {
    var b1 := Block(b.slots[b.size := x], b.size + 1);
    assert b1.slots[..b1.size] == b.Contents() + [x];
    var r := EmplaceBackAsWritten(f, b, x);
    assert r.slots[..r.size] == b1.slots[..b1.size] + [x];
  }

  /** The smallest instance: one free slot, nothing in it. */
  lemma EmplaceBackAsWrittenExample()
    ensures EmplaceBackAsWritten(Base, Block([0], 0), 7).Contents() == [7, 7]
  {
    EmplaceBackAsWrittenAppendsTwice(Base, Block([0], 0), 7);
  }

  /** f() of test/main.cc on simple::vector as written: after v(10) and push_back(1), v
      holds ten zeros and 1 in a block of 20; emplace_back(2) then appends 2 twice in a
      block of 24, so after pop_back() the copy v2 = v holds 12 elements ending in 2. */
  lemma EmplaceBackAsWrittenMainCopies()
    ensures var v := EmplaceBackAsWritten(Simple, Block(Repeat(0, 10) + [1] + Repeat(0, 9), 11), 2);
            v.Contents() == Repeat(0, 10) + [1, 2, 2] && |v.slots| == 24 &&
            |v.Contents()[..12]| == 12 && v.Contents()[..12][11] == 2
  {
    var b := Block(Repeat(0, 10) + [1] + Repeat(0, 9), 11);
    assert b.Contents() == Repeat(0, 10) + [1];
    EmplaceBackAsWrittenAppendsTwice(Simple, b, 2);
    assert Repeat(0, 10) + [1] + [2, 2] == Repeat(0, 10) + [1, 2, 2];
  }

  ///////////////////////////////////////////////////////////
  // resize grows in place with a loop that never runs     //
  ///////////////////////////////////////////////////////////

  /** The in-place branches of resize(count) and resize(count, value) as written: when
      count > size() the loop `while (size() > count) emplace_back(...)` tests a
      condition that is false on entry, so nothing changes; otherwise pop_back runs
      until size() == count. */
  function ResizeInPlaceAsWritten<T>(b: Block<T>, count: nat): (r: Block<T>)
    requires b.Valid() && count <= |b.slots|
    ensures r.Valid()
  {
    if count > b.size then b  // the grow loop's guard is false on entry
    else Block(b.slots, count)
  }

  /** Resizing an empty container with room for two to two elements leaves it empty;
      Vector.Resize gives it two elements. */
  lemma ResizeInPlaceAsWrittenDoesNotGrow<T>(b: Block<T>, count: nat)
    requires b.Valid() && b.size < count <= |b.slots|
    ensures ResizeInPlaceAsWritten(b, count).Contents() == b.Contents()
    ensures |ResizeInPlaceAsWritten(b, count).Contents()| != count
  {
  }

  ////////////////////////////////////////////////////////////////////
  // move assignment frees the old block through the new allocator  //
  ////////////////////////////////////////////////////////////////////

  /** The allocator the propagating branch of move assignment frees the old block
      through, as written: m_alloc after `m_alloc = other.m_alloc`, which runs before
      deallocate() whenever the allocators differ. */
  function MoveAssignFreesThroughAsWritten(t: AllocTraits, mine: Allocator, theirs: Allocator): Allocator
    requires t.propagateOnMove
  {
    if !t.alwaysEqual && mine != theirs then theirs else mine
  }

  /** Whenever the branch replaces the allocator, the block is freed through one that
      compares unequal to the allocator that supplied it. Vector.MoveAssign frees it
      while Valid() still ties the block to m_alloc. */
  lemma MoveAssignFreesThroughAsWrittenWrongAllocator(t: AllocTraits, mine: Allocator, theirs: Allocator)
    requires t.propagateOnMove && !Interchangeable(t, mine, theirs)
    ensures !Interchangeable(t, MoveAssignFreesThroughAsWritten(t, mine, theirs), mine)
  {
  }

  /** An allocator type that propagates on move and whose instances can differ, with
      resources 1 and 2: the block from 1 is freed through 2. */
  lemma MoveAssignFreesThroughAsWrittenExample()
    ensures MoveAssignFreesThroughAsWritten(AllocTraits(false, true, false, false), Allocator(1), Allocator(2))
            == Allocator(2)
  {
  }

  ////////////////////////////////////////////////////////////////////
  // resize(count, value) past the capacity keeps the old size      //
  ////////////////////////////////////////////////////////////////////

  /** The reallocating branch of resize(count, value) as written: the copies of value
      are constructed at [size, count) of the new block, then `end` is reassigned to the
      end of the moved elements and becomes m_end, so the copies are not counted. */
  function ResizeFillReallocAsWritten<T>(b: Block<T>, count: nat, value: T): (r: Block<T>)
    requires b.Valid() && count > |b.slots|
    ensures r.Valid() && |r.slots| == count
  {
    Block(b.Contents() + Repeat(value, count - b.size), b.size)
  }

  /** Growing past the capacity with copies of value leaves the elements as they were;
      Vector.ResizeFill gives count of them. */
  lemma ResizeFillReallocAsWrittenKeepsSize<T>(b: Block<T>, count: nat, value: T)
    requires b.Valid() && count > |b.slots|
    ensures ResizeFillReallocAsWritten(b, count, value).Contents() == b.Contents()
    ensures |ResizeFillReallocAsWritten(b, count, value).Contents()| < count
  {
    var r := ResizeFillReallocAsWritten(b, count, value);
    assert r.slots[..r.size] == b.Contents();
  }

  //////////////////////////////////////////////////////////////////
  // insert(pos, count, value) at the end inserts a single copy   //
  //////////////////////////////////////////////////////////////////

  /** insert(end(), count, value) as written, for count != 0: `emplace_back(value)`
      once, taken here as emplace_back is meant to work. */
  function InsertNAtEndAsWritten<T>(s: seq<T>, count: nat, v: T): seq<T>
    requires count != 0
  {
    s + [v]
  }

  /** Asking for two copies at the end gives one; Vector.InsertN gives count. */
  lemma InsertNAtEndAsWrittenDropsCopies<T>(s: seq<T>, count: nat, v: T)
    requires count >= 2
    ensures |InsertNAtEndAsWritten(s, count, v)| < |InsertAt(s, |s|, Repeat(v, count))|
  {
  }

  /////////////////////////////////////////////////////////////////
  // insert reallocates exactly when there is room               //
  /////////////////////////////////////////////////////////////////

  /** The test guarding insert's reallocating branch as written, `m_end + count <
      m_realend`, for a container of size elements and capacity cap. */
  function InsertReallocatesAsWritten(size: nat, count: nat, cap: nat): bool {
    size + count < cap
  }

  /** One element in a full block of one, one more inserted before it: the as-written
      test takes the in-place branch, which shifts the element to slot 1 of a block of
      one slot. With room to spare it reallocates. Vector.InsertN reallocates exactly
      when size + count > cap. */
  lemma InsertReallocatesAsWrittenInverted()
    ensures !InsertReallocatesAsWritten(1, 1, 1) && 1 + 1 > 1
    ensures InsertReallocatesAsWritten(1, 1, 4) && 1 + 1 <= 4
  {
  }

  //////////////////////////////////////////////////////////////////////
  // emplace and insert in place never advance m_end                  //
  //////////////////////////////////////////////////////////////////////

  /** move_if_noexcept_launder_backward(first, last, dstEnd) as its name describes:
      the slots [first, last) move to end at dstEnd, the last one first. */
  function MoveBackward<T>(s: seq<T>, first: nat, last: nat, dstEnd: nat): (r: seq<T>)
    requires first <= last <= dstEnd <= |s|
    ensures |r| == |s|
    ensures forall j | dstEnd - (last - first) <= j < dstEnd :: r[j] == s[j - (dstEnd - last)]
    ensures forall j | 0 <= j < |s| && !(dstEnd - (last - first) <= j < dstEnd) :: r[j] == s[j]
    decreases last - first
  {
    if first == last then s
    else
      var s1 := s[dstEnd - 1 := s[last - 1]];
      var r := MoveBackward(s1, first, last - 1, dstEnd - 1);
      assert forall j | dstEnd - (last - first) <= j < dstEnd - 1 :: r[j] == s[j - (dstEnd - last)] by {
        forall j | dstEnd - (last - first) <= j < dstEnd - 1 ensures r[j] == s[j - (dstEnd - last)] {
          assert r[j] == s1[j - (dstEnd - last)];
        }
      }
      assert r[dstEnd - 1] == s1[dstEnd - 1];
      r
  }

  /** The in-place branch of vector_base's emplace(pos, v) as written: the last element
      is moved one slot out, the rest of the tail shifted back over it, and v assigned
      at pos; m_end is never advanced, so the element moved past the end is lost. */
  function EmplaceInPlaceAsWritten<T>(b: Block<T>, pos: nat, v: T): (r: Block<T>)
    requires b.Valid() && pos < b.size < |b.slots|
    ensures r.Valid()
  {
    var s1 := b.slots[b.size := b.slots[b.size - 1]];
    var s2 := MoveBackward(s1, pos, b.size - 1, b.size);
    Block(s2[pos := v], b.size)
  }

  /** [1, 2, 3] with a free slot, 9 emplaced at the front: the slots hold [9, 1, 2, 3]
      but the container reads [9, 1, 2]. Vector.Emplace gives [9, 1, 2, 3]. */
  lemma EmplaceInPlaceAsWrittenLosesLast()
    ensures EmplaceInPlaceAsWritten(Block([1, 2, 3, 0], 3), 0, 9).slots == [9, 1, 2, 3]
    ensures EmplaceInPlaceAsWritten(Block([1, 2, 3, 0], 3), 0, 9).Contents() == [9, 1, 2]
    ensures InsertAt([1, 2, 3], 0, [9]) == [9, 1, 2, 3]
  {
    var s1 := [1, 2, 3, 3];
    assert [1, 2, 3, 0][3 := 3] == s1;
    assert MoveBackward(s1, 0, 2, 3) == [1, 1, 2, 3] by {
      assert s1[2 := s1[1]] == [1, 2, 2, 3];
      assert [1, 2, 2, 3][1 := 1] == [1, 1, 2, 3];
    }
    assert [1, 1, 2, 3][0 := 9] == [9, 1, 2, 3];
  }

  /** The in-place branch of vector_base's insert(pos, count, value) as written: the
      last count elements move count slots out, the rest of the tail is shifted back
      behind them and [pos, pos + count) is filled with value; m_end is never advanced,
      so the count elements moved past the end are lost. With count 1 this is also the
      in-place branch of insert(pos, T&&). */
  function InsertNInPlaceAsWritten<T>(b: Block<T>, pos: nat, count: nat, v: T): (r: Block<T>)
    requires b.Valid() && pos + count <= b.size && b.size + count <= |b.slots|
    ensures r.Valid() && |r.slots| == |b.slots| && r.size == b.size
  {
    var s1 := MoveBackward(b.slots, b.size - count, b.size, b.size + count);
    var s2 := MoveBackward(s1, pos, b.size - count, b.size);
    Block(s2[..pos] + Repeat(v, count) + s2[pos + count..], b.size)
  }

  /** [1, 2, 3] in a block of five, two 9s inserted at the front: the as-written test
      takes the in-place branch, the slots hold [9, 9, 1, 2, 3], but the container
      reads [9, 9, 1]. Vector.InsertN gives [9, 9, 1, 2, 3]. */
  lemma InsertNInPlaceAsWrittenLosesTail()
    ensures !InsertReallocatesAsWritten(3, 2, 5)
    ensures InsertNInPlaceAsWritten(Block([1, 2, 3, 0, 0], 3), 0, 2, 9).slots == [9, 9, 1, 2, 3]
    ensures InsertNInPlaceAsWritten(Block([1, 2, 3, 0, 0], 3), 0, 2, 9).Contents() == [9, 9, 1]
    ensures InsertAt([1, 2, 3], 0, Repeat(9, 2)) == [9, 9, 1, 2, 3]
  {
    var s0 := [1, 2, 3, 0, 0];
    assert MoveBackward(s0, 1, 3, 5) == [1, 2, 3, 2, 3] by {
      assert s0[4 := s0[2]] == [1, 2, 3, 0, 3];
      assert [1, 2, 3, 0, 3][3 := 2] == [1, 2, 3, 2, 3];
    }
    var s1 := [1, 2, 3, 2, 3];
    assert MoveBackward(s1, 0, 1, 3) == [1, 2, 1, 2, 3] by {
      assert s1[2 := s1[0]] == [1, 2, 1, 2, 3];
    }
    var s2 := [1, 2, 1, 2, 3];
    assert Repeat(9, 2) == [9, 9];
    assert s2[..0] + [9, 9] + s2[2..] == [9, 9, 1, 2, 3];
  }

  ////////////////////////////////////////////////////////////////////
  // simple::vector's emplace shifts the tail front to back         //
  ////////////////////////////////////////////////////////////////////

  /** move_if_noexcept_launder(first, last, dst) as the algorithm header's other
      algorithms work: slot by slot from the front. */
  function MoveForward<T>(s: seq<T>, first: nat, last: nat, dst: nat): (r: seq<T>)
    requires first <= last <= |s| && dst + (last - first) <= |s|
    ensures |r| == |s|
    ensures dst <= first || last <= dst ==> forall j | dst <= j < dst + (last - first) :: r[j] == s[j - dst + first]
    ensures forall j | 0 <= j < |s| && !(dst <= j < dst + (last - first)) :: r[j] == s[j]
    decreases last - first
  {
    if first == last then s
    else
      var s1 := s[dst := s[first]];
      var r := MoveForward(s1, first + 1, last, dst + 1);
      assert dst <= first || last <= dst ==> forall j | dst + 1 <= j < dst + (last - first) :: r[j] == s[j - dst + first] by {
        if dst <= first || last <= dst {
          forall j | dst + 1 <= j < dst + (last - first) ensures r[j] == s[j - dst + first] {
            assert r[j] == s1[j - (dst + 1) + (first + 1)];
          }
        }
      }
      assert r[dst] == s1[dst];
      r
  }

  /** The in-place branch of simple::vector's emplace(pos, v) as written: the tail is
      moved one slot forward onto itself from the front, so the element at pos is copied
      over all of it; m_end is not advanced either. */
  function SimpleEmplaceInPlaceAsWritten<T>(b: Block<T>, pos: nat, v: T): (r: Block<T>)
    requires b.Valid() && pos < b.size < |b.slots|
    ensures r.Valid()
  {
    var s1 := b.slots[b.size := b.slots[b.size - 1]];
    var s2 := MoveForward(s1, pos, b.size - 1, pos + 1);
    Block(s2[pos := v], b.size)
  }

  /** [1, 2, 3] with a free slot, 9 emplaced at the front: the container reads
      [9, 1, 1]. */
  lemma SimpleEmplaceInPlaceAsWrittenSmears()
    ensures SimpleEmplaceInPlaceAsWritten(Block([1, 2, 3, 0], 3), 0, 9).slots == [9, 1, 1, 3]
    ensures SimpleEmplaceInPlaceAsWritten(Block([1, 2, 3, 0], 3), 0, 9).Contents() == [9, 1, 1]
  {
    var s1 := [1, 2, 3, 3];
    assert [1, 2, 3, 0][3 := 3] == s1;
    assert MoveForward(s1, 0, 2, 1) == [1, 1, 1, 3] by {
      assert s1[1 := s1[0]] == [1, 1, 3, 3];
      assert MoveForward([1, 1, 3, 3], 1, 2, 2) == MoveForward([1, 1, 1, 3], 2, 2, 3);
    }
    assert [1, 1, 1, 3][0 := 9] == [9, 1, 1, 3];
  }
}

=== FILE: scenarios.dfy ===
/** Client code of the container, written against the model: the test programs'
    constexpr functions and the container's characteristic behaviours, each with the
    outcome it must have. */
module Scenarios {
  import opened Allocation
  import opened SequenceModel
  import opened VectorBase
  import Algorithm

  /** std::allocator's kind for vector_base and for simple::vector. */
  const BaseKind := Kind(Base, StdAllocatorTraits, 1000000)
  const SimpleKind := Kind(Simple, StdAllocatorTraits, 1000000)

  /** Three push_backs onto an empty vector_base, with emplace_back's missing return
      corrected: the capacity goes 0, 1, 3, 3. */
  method GrowthFromEmpty() returns (caps: seq<nat>, elems: seq<int>)
    ensures caps == [0, 1, 3, 3]
    ensures elems == [1, 2, 3]
  {
    var v := new Vector<int>.Empty(BaseKind, Allocator(0));
    caps := [v.Capacity()];
    var st := v.PushBack(1, NoFault);
    caps := caps + [v.Capacity()];
    st := v.PushBack(2, NoFault);
    caps := caps + [v.Capacity()];
    st := v.PushBack(3, NoFault);
    caps := caps + [v.Capacity()];
    elems := v.Contents();
  }

  /** f() of test/hello.cc: {1, 2}, then push_back(3); the three elements sum to 6. */
  method HelloSum() returns (sum: int)
    ensures sum == 6
  {
    var v := new Vector<int>.FromRange(BaseKind, [1, 2], Allocator(0));
    var st := v.PushBack(3, NoFault);
    sum := v.Get(0) + v.Get(1) + v.Get(2);
  }

  /** f() of test/main.cc on simple::vector: v(10), v2(v), v.push_back(1),
      v.emplace_back(2), v.pop_back(), v2 = v, with emplace_back's missing return
      corrected. As written, v2 ends with 12 elements (Findings.EmplaceBackAsWrittenMainCopies). */
  method MainCopies() returns (n: nat, last: int)
    ensures n == 11 && last == 1
  {
    var v := new Vector<int>.Filled(SimpleKind, 10, 0, Allocator(0));
    var v2 := new Vector<int>.Copy(v);
    var st := v.PushBack(1, NoFault);
    assert v.Capacity() == 20;
    st := v.EmplaceBack(2, NoFault);
    v.PopBack();
    st := v2.CopyAssign(v, NoFault);
    assert v2.Contents() == Repeat(0, 10) + [1];
    n := v2.Size();
    last := v2.Get(10);
  }

  /** zip_transform of {1, 2, 3} and {10, 20, 30} with `+`. */
  method ZipAdds() returns (sums: seq<int>)
    ensures sums == [11, 22, 33]
  {
    var fst, rest := [1, 2, 3], [10, 20, 30];
    var dst := new int[3];
    var e := Algorithm.ZipTransform(fst, dst, 0, (a: int, b: int) => a + b, rest);
    assert fst[0] == 1 && fst[1] == 2 && fst[2] == 3;
    sums := dst[..e];
  }

  function IsEven(x: int): bool {
    x % 2 == 0
  }

  /** erase_if({1, 2, 3, 4, 5}, even) removes two elements and keeps {1, 3, 5}. */
  method EraseEvens() returns (removed: nat, kept: seq<int>)
    ensures removed == 2 && kept == [1, 3, 5]
  {
    var v := new Vector<int>.FromRange(BaseKind, [1, 2, 3, 4, 5], Allocator(0));
    removed := EraseIf(v, IsEven);
    kept := v.Contents();
    EvensOfOneToFive();
  }

  /** What erase_if keeps of and removes from {1, 2, 3, 4, 5}, worked out from the back. */
  lemma EvensOfOneToFive()
    ensures RemovedIf([1, 2, 3, 4, 5], IsEven) == [1, 3, 5]
    ensures CountIf([1, 2, 3, 4, 5], IsEven) == 2
  {
    RemovedIfCons(5, [], IsEven);
    RemovedIfCons(4, [5], IsEven);
    RemovedIfCons(3, [4, 5], IsEven);
    RemovedIfCons(2, [3, 4, 5], IsEven);
    RemovedIfCons(1, [2, 3, 4, 5], IsEven);
  }

  /** at(size()) reports out of range; at(size() - 1) is the last element. */
  method AtBounds() returns (past: Result<int>, lastOne: Result<int>)
    ensures past == Failure(OutOfRange)
    ensures lastOne == Success(2)
  {
    var v := new Vector<int>.FromRange(BaseKind, [1, 2], Allocator(0));
    past := v.At(2);
    lastOne := v.At(1);
  }

  /** push_back on a full vector whose allocator refuses: std::bad_alloc, and the
      elements and block are as they were. */
  method StrongGuarantee() returns (st: Status, elems: seq<int>)
    ensures st == Err(BadAlloc)
    ensures elems == [1, 2]
  {
    var v := new Vector<int>.FromRange(BaseKind, [1, 2], Allocator(0));
    st := v.PushBack(3, Env(true, false));
    elems := v.Contents();
  }

  /** insert(pos, count, value) followed by erase(pos, pos + count) gives back the
      original elements. */
  method InsertThenErase() returns (mid: seq<int>, after: seq<int>)
    ensures mid == [1, 9, 9, 2, 3]
    ensures after == [1, 2, 3]
  {
    var v := new Vector<int>.FromRange(BaseKind, [1, 2, 3], Allocator(0));
    var r := v.InsertN(1, 2, 9, NoFault);
    assert Repeat(9, 2) == [9, 9];
    mid := v.Contents();
    var p := v.EraseRange(1, 3);
    InsertThenRemove([1, 2, 3], 1, [9, 9]);
    after := v.Contents();
  }

  /** insert(begin() + 1, first, last) of [7, 8] into [1, 2] with nothing failing: the
      whole range goes in and the result is the index after it. */
  method InsertRangeWhole() returns (elems: seq<int>, at: nat)
    ensures elems == [1, 7, 8, 2] && at == 3
  {
    var v := new Vector<int>.FromRange(BaseKind, [1, 2], Allocator(0));
    var r, _ := v.InsertRange(1, [7, 8], NoFault);
    assert [7, 8][..2] == [7, 8];
    elems, at := v.Contents(), r.value;
  }
}

=== FILE: sequence_model.dfy ===
/** The element sequences the container's operations produce, as values. The container's
    methods are specified by these functions; the lemmas state what they mean. */
module SequenceModel {

  /** n copies of v. */
  function Repeat<T>(v: T, n: nat): (r: seq<T>)
    ensures |r| == n
    ensures forall i | 0 <= i < n :: r[i] == v
  {
    if n == 0 then [] else Repeat(v, n - 1) + [v]
  }

  /** s with xs inserted before position i. */
  function InsertAt<T>(s: seq<T>, i: nat, xs: seq<T>): seq<T>
    requires i <= |s|
  {
    s[..i] + xs + s[i..]
  }

  /** s without the elements at positions [i, j). */
  function RemoveRange<T>(s: seq<T>, i: nat, j: nat): seq<T>
    requires i <= j <= |s|
  {
    s[..i] + s[j..]
  }

  /** Inserting at i and then removing what was inserted gives back the original. */
  lemma InsertThenRemove<T>(s: seq<T>, i: nat, xs: seq<T>)
    requires i <= |s|
    ensures i + |xs| <= |InsertAt(s, i, xs)|
    ensures RemoveRange(InsertAt(s, i, xs), i, i + |xs|) == s
  {
    var t := InsertAt(s, i, xs);
    assert t[..i] == s[..i];
    assert t[i + |xs|..] == s[i..];
    assert s[..i] + s[i..] == s;
  }

  /** Inserting xs and then ys right after it is inserting xs + ys. */
  lemma InsertAtConcat<T>(s: seq<T>, i: nat, xs: seq<T>, ys: seq<T>)
    requires i <= |s|
    ensures i + |xs| <= |InsertAt(s, i, xs)|
    ensures InsertAt(InsertAt(s, i, xs), i + |xs|, ys) == InsertAt(s, i, xs + ys)
  {
    var t := InsertAt(s, i, xs);
    assert t[..i + |xs|] == s[..i] + xs;
    assert t[i + |xs|..] == s[i..];
  }

  /** A sequence whose first slices are a, b and c begins with a + b + c. */
  lemma Splice<T>(t: seq<T>, a: seq<T>, b: seq<T>, c: seq<T>)
    requires |a| + |b| + |c| <= |t|
    requires t[..|a|] == a && t[|a|..|a| + |b|] == b && t[|a| + |b|..|a| + |b| + |c|] == c
    ensures t[..|a| + |b| + |c|] == a + b + c
  {
    assert t[..|a| + |b| + |c|] == t[..|a|] + t[|a|..|a| + |b|] + t[|a| + |b|..|a| + |b| + |c|];
  }

  /** Two sequences that agree on [lo, hi) agree on every slice inside it. */
  lemma SameSlice<T>(t: seq<T>, u: seq<T>, lo: nat, hi: nat, i: nat, j: nat)
    requires lo <= i <= j <= hi <= |t| && hi <= |u| && t[lo..hi] == u[lo..hi]
    ensures t[i..j] == u[i..j]
  {
    forall k | 0 <= k < j - i
      ensures t[i..j][k] == u[i..j][k]
    {
      assert t[lo..hi][i - lo + k] == u[lo..hi][i - lo + k];
    }
  }

  /** The elements of s for which p is false, in their original order. */
  function RemovedIf<T>(s: seq<T>, p: T -> bool): seq<T>
    decreases |s|
  {
    if |s| == 0 then [] else (if p(s[0]) then [] else [s[0]]) + RemovedIf(s[1..], p)
  }

  /** The number of elements of s for which p is true. */
  function CountIf<T>(s: seq<T>, p: T -> bool): nat
    decreases |s|
  {
    if |s| == 0 then 0 else (if p(s[0]) then 1 else 0) + CountIf(s[1..], p)
  }

  /** Removal and counting from a sequence that starts with x look at x first. */
  lemma RemovedIfCons<T>(x: T, rest: seq<T>, p: T -> bool)
    ensures RemovedIf([x] + rest, p) == (if p(x) then [] else [x]) + RemovedIf(rest, p)
    ensures CountIf([x] + rest, p) == (if p(x) then 1 else 0) + CountIf(rest, p)
  {
    assert ([x] + rest)[1..] == rest;
  }

  /** Removal works piecewise, so the kept elements stay in their original order. */
  lemma {:induction false} RemovedIfAppend<T>(a: seq<T>, b: seq<T>, p: T -> bool)
    ensures RemovedIf(a + b, p) == RemovedIf(a, p) + RemovedIf(b, p)
    decreases |a|
  {
    if |a| > 0 {
      assert (a + b)[1..] == a[1..] + b;
      RemovedIfAppend(a[1..], b, p);
    } else {
      assert a + b == b;
    }
  }

  /** Exactly the matching elements are removed: the kept and the matching elements
      together account for all of s. */
  lemma {:induction false} RemovedIfLength<T>(s: seq<T>, p: T -> bool)
    ensures |RemovedIf(s, p)| + CountIf(s, p) == |s|
    decreases |s|
  {
    if |s| > 0 {
      RemovedIfLength(s[1..], p);
    }
  }

  /** An element is kept iff it occurs in s and does not match p. */
  lemma {:induction false} RemovedIfMembers<T>(s: seq<T>, p: T -> bool, x: T)
    ensures x in RemovedIf(s, p) <==> x in s && !p(x)
    decreases |s|
  {
    if |s| > 0 {
      RemovedIfMembers(s[1..], p, x);
      assert s == [s[0]] + s[1..];
    }
  }

  /** A sequence with nothing matching is left as it is. */
  lemma {:induction false} RemovedIfNoMatch<T>(s: seq<T>, p: T -> bool)
    requires forall i | 0 <= i < |s| :: !p(s[i])
    ensures RemovedIf(s, p) == s && CountIf(s, p) == 0
    decreases |s|
  {
    if |s| > 0 {
      RemovedIfNoMatch(s[1..], p);
      assert s == [s[0]] + s[1..];
    }
  }
}

=== FILE: vector.dfy ===
/** The allocator-parameterised growable array: constexpr_containers::vector_base and its
    near-duplicate simple::vector, one class told apart by kind.flavor.

    The block [m_begin, m_realend) is the array `buf` (an empty array is the null block),
    m_end - m_begin is `len`, so size() is `len` and capacity() is `buf.Length`. The live
    elements are buf[..len]; the slots beyond are raw memory whose values mean nothing.
    Freeing a block is dropping the reference to it. Element construction, assignment and
    destruction are writes of values.

    Where the source has a defect that its comments and surrounding code show was not
    intended, the model does what was intended and a comment beginning "Source:" says
    what the code does instead. */
module VectorBase {
  import opened Allocation
  import opened SequenceModel
  import opened Comparison
  import Algorithm

  class Vector<T(0)> {
    /** The instantiation: class template, allocator traits and max_size(). */
    const kind: Kind
    /** The owned block. */
    var buf: array<T>
    /** The number of live elements at the front of the block. */
    var len: nat
    /** m_alloc */
    var alloc: Allocator
    /** The allocator the block was obtained from, which is the one that must free it. */
    ghost var owner: Allocator

    /** begin <= end <= realend, and the block can be freed through m_alloc. */
    ghost predicate Valid()
      reads this
    {
      len <= buf.Length && Interchangeable(kind.traits, owner, alloc)
    }

    function Contents(): seq<T>
      reads this, buf
      requires Valid()
    {
      buf[..len]
    }

    function Size(): (n: nat)
      reads this, buf
      requires Valid()
      ensures n == |Contents()| && n <= Capacity()
    {
      len
    }

    function Capacity(): (c: nat)
      reads this
      ensures Valid() ==> len <= c
    {
      buf.Length
    }

    function IsEmpty(): (b: bool)
      reads this, buf
      requires Valid()
      ensures b <==> Contents() == []
    {
      len == 0
    }

    /** Whether copy-assigning from other frees this container's block first: the
        allocator propagates on copy and the two allocators differ. */
    predicate ReleasesOnCopy(other: Vector<T>)
      reads this, other
    {
      other != this && kind.traits.propagateOnCopy && !Interchangeable(kind.traits, alloc, other.alloc)
    }

    /** Whether move-assigning from other takes over other's block. */
    predicate StealsOnMove(other: Vector<T>)
      reads this, other
    {
      kind.traits.propagateOnMove || Interchangeable(kind.traits, alloc, other.alloc)
    }

    ///////////////////
    // Construction  //
    ///////////////////

    /** vector_base() and vector_base(alloc): no block. */
    constructor Empty(k: Kind, a: Allocator)
      ensures Valid() && kind == k && alloc == a && fresh(buf)
      ensures Contents() == [] && Capacity() == 0
    {
      kind, alloc, owner := k, a, a;
      buf, len := new T[0], 0;
    }

    /** vector_base(count, value, alloc): a block of exactly count copies of value. */
    constructor Filled(k: Kind, count: nat, value: T, a: Allocator)
      ensures Valid() && kind == k && alloc == a && fresh(buf)
      ensures Contents() == Repeat(value, count) && Capacity() == count
    {
      // Source: simple::vector's version calls allocate(count) without the allocator
      // argument and does not compile
      var b := new T[count];
      var ps := Algorithm.Positions(Algorithm.MakeRange(0, count));
      for k := 0 to |ps|
        invariant forall j | 0 <= j < k :: b[j] == value
      {
        b[ps[k]] := value;
      }
      kind, alloc, buf, len := k, a, b, count;
      owner := a;
    }

    /** vector_base(first, last, alloc) for a random-access range, to which the copy and
        initializer-list constructors delegate: a block of exactly the range's length
        holding its elements; an empty range allocates nothing. */
    constructor FromRange(k: Kind, src: seq<T>, a: Allocator)
      requires k.flavor == Base
      ensures Valid() && kind == k && alloc == a && fresh(buf)
      ensures Contents() == src && Capacity() == |src|
    {
      var b := new T[|src|];
      var n := 0;
      if |src| > 0 {
        n := Algorithm.UninitializedCopy(src, b, 0);
      }
      kind, alloc, buf, len := k, a, b, n;
      owner := a;
    }

    /** vector_base(first, last, alloc) for a single-pass input range: starts with no
        block and push_backs each element, so the capacity follows the growth rule. */
    constructor FromInput(k: Kind, src: seq<T>, a: Allocator)
      requires k.flavor == Base
      ensures Valid() && kind == k && alloc == a
      ensures Contents() == src && Size() <= Capacity()
    {
      kind, alloc, owner := k, a, a;
      buf, len := new T[0], 0;
      new;
      for i := 0 to |src|
        invariant Valid() && alloc == a && fresh(buf)
        invariant len == i && Contents() == src[..i]
      {
        var _ := PushBack(src[i], NoFault);
      }
      assert src[..|src|] == src;
    }

    /** simple::vector(il, alloc): allocates il.size() slots, then push_backs each element. */
    constructor FromList(k: Kind, il: seq<T>, a: Allocator)
      ensures Valid() && kind == k && alloc == a && fresh(buf)
      ensures Contents() == il && Capacity() == |il|
    {
      kind, alloc, owner := k, a, a;
      // Source: simple::vector calls allocate(il.size()) without the allocator argument
      // and does not compile
      buf, len := new T[|il|], 0;
      new;
      for i := 0 to |il|
        invariant Valid() && alloc == a && fresh(buf) && buf.Length == |il|
        invariant len == i && Contents() == il[..i]
      {
        var _ := PushBack(il[i], NoFault);
      }
      assert il[..|il|] == il;
    }

    /** The copy constructor: other's elements in a block of exactly their number, with
        the allocator other's select_on_container_copy_construction yields (other's own). */
    constructor Copy(other: Vector<T>)
      requires other.Valid()
      ensures Valid() && kind == other.kind && alloc == other.alloc && fresh(buf)
      ensures Contents() == other.Contents() && Capacity() == other.Size()
    {
      var b := new T[other.len];
      var n := Algorithm.UninitializedCopy(other.Contents(), b, 0);
      kind, alloc, buf, len := other.kind, other.alloc, b, n;
      owner := other.alloc;
    }

    /** vector_base(other, alloc): the copy constructor with an explicit allocator. */
    constructor CopyWithAllocator(other: Vector<T>, a: Allocator)
      requires other.Valid()
      ensures Valid() && kind == other.kind && alloc == a && fresh(buf)
      ensures Contents() == other.Contents() && Capacity() == other.Size()
    {
      var b := new T[other.len];
      var n := Algorithm.UninitializedCopy(other.Contents(), b, 0);
      kind, alloc, buf, len := other.kind, a, b, n;
      owner := a;
    }

    /** The move constructor: takes over other's block, leaving other empty with no block. */
    constructor Move(other: Vector<T>)
      requires other.Valid()
      modifies other
      ensures Valid() && other.Valid()
      ensures kind == other.kind && alloc == old(other.alloc)
      ensures buf == old(other.buf) && Contents() == old(other.Contents())
      ensures other.Contents() == [] && other.Capacity() == 0 && other.alloc == old(other.alloc)
    {
      kind, alloc, buf, len := other.kind, other.alloc, other.buf, other.len;
      owner := other.owner;
      new;
      other.buf, other.len := new T[0], 0;
    }

    /** vector_base(other&&, alloc): takes over other's block when the allocators compare
        equal; otherwise moves the elements into a block of exactly their number, and
        other keeps its (moved-from) elements. */
    constructor MoveWithAllocator(other: Vector<T>, a: Allocator)
      requires other.Valid()
      modifies other
      ensures Valid() && other.Valid() && kind == other.kind && alloc == a
      ensures Contents() == old(other.Contents())
      ensures Interchangeable(kind.traits, a, old(other.alloc)) ==>
                buf == old(other.buf) && other.Contents() == [] && other.Capacity() == 0
      ensures !Interchangeable(kind.traits, a, old(other.alloc)) ==>
                fresh(buf) && Capacity() == old(other.Size()) &&
                other.buf == old(other.buf) && other.len == old(other.len)
      ensures other.alloc == old(other.alloc)
    {
      var steal := Interchangeable(other.kind.traits, a, other.alloc);
      var b: array<T>, n: nat;
      if !steal {
        // Source: allocate(other.size()) omits the allocator argument and does not compile
        b := new T[other.len];
        n := Algorithm.UninitializedMove(other.Contents(), b, 0);
      } else {
        b, n := other.buf, other.len;
      }
      kind, alloc, buf, len := other.kind, a, b, n;
      owner := if steal then other.owner else a;
      new;
      if steal {
        other.buf, other.len := new T[0], 0;
      }
    }

    ////////////////
    // Assignment //
    ////////////////

    /** The common tail of copy assignment, element-wise move assignment and
        initializer-list assignment: make the elements those of src. If src does not fit,
        src is built in a fresh block of exactly |src| slots, which replaces the old one
        only once complete (a failure leaves the container as it was); otherwise the
        excess elements are destroyed, the shared ones assigned and the rest constructed
        in place. */
    method AssignFrom(src: seq<T>, env: Env) returns (st: Status)
      requires Valid()
      modifies this`buf, this`len, this`owner, buf
      ensures Valid() && (buf == old(buf) || fresh(buf))
      ensures st.Ok? <==> |src| <= old(Capacity()) || (!env.allocFails && !env.ctorFails)
      ensures st.Ok? ==> Contents() == src
      ensures st.Ok? ==> Capacity() == if |src| <= old(Capacity()) then old(Capacity()) else |src|
      ensures st.Err? ==> buf == old(buf) && Contents() == old(Contents())
      ensures st.Err? ==> st.error == if env.allocFails then AllocationError(|src|, kind.maxSize) else ElementError
    {
      if |src| > buf.Length {
        var r := AllocateTmp(|src|, env.allocFails);
        if r.Failure? {
          return Err(r.error);
        }
        var tmp := r.value;
        if env.ctorFails {
          // constructing an element into tmp threw: tmp is freed, the block untouched
          return Err(ElementError);
        }
        var _ := Algorithm.UninitializedCopy(src, tmp, 0);
        buf, len := tmp, |src|;
        owner := alloc;
        return Ok;
      }
      AssignInPlace(src);
      return Ok;
    }

    /** The branch of assign that keeps the block: the excess elements are destroyed,
        the remaining ones assigned from src, and the rest of src constructed at the
        end. */
    method AssignInPlace(src: seq<T>)
      requires Valid() && |src| <= buf.Length
      modifies this`buf, this`len, this`owner, buf
      ensures Valid() && buf == old(buf) && Contents() == src
    {
      // destroy excess
      while |src| < len
        invariant Valid() && buf == old(buf)
        modifies this`len
      {
        PopBack();
      }
      // assign onto the existing elements
      var i := 0;
      while i < len
        invariant 0 <= i <= len <= |src| && Valid() && buf == old(buf)
        invariant buf[..i] == src[..i]
        modifies buf
      {
        buf[i] := src[i];
        i := i + 1;
      }
      // construct the remaining elements at the end
      while len < |src|
        invariant Valid() && buf == old(buf) && len <= |src|
        invariant Contents() == src[..len]
      {
        var _ := PushBack(src[len], NoFault);
      }
      assert src[..len] == src;
    }

    /** Copy assignment. Self-assignment does nothing. With an allocator that propagates
        on copy, a differing allocator's block is freed first and the allocator adopted. */
    method CopyAssign(other: Vector<T>, env: Env) returns (st: Status)
      requires Valid() && other.Valid() && other.kind == kind
      requires other == this || other.buf != buf
      modifies this, buf
      ensures Valid() && (buf == old(buf) || fresh(buf))
      ensures other.Valid() && other.Contents() == old(other.Contents())
      ensures other == this ==> st.Ok? && buf == old(buf) && len == old(len) && alloc == old(alloc)
      ensures other != this ==>
                alloc == if kind.traits.propagateOnCopy then old(other.alloc) else old(alloc)
      ensures st.Ok? ==> Contents() == old(other.Contents())
      ensures var cap0 := if old(ReleasesOnCopy(other)) then 0 else old(Capacity());
              && (st.Ok? <==> other == this || old(other.len) <= cap0 || (!env.allocFails && !env.ctorFails))
              && (other != this && st.Ok? ==> Capacity() == if old(other.len) <= cap0 then cap0 else old(other.len))
              && (st.Err? ==> Capacity() == cap0)
      ensures st.Err? ==> Contents() == if old(ReleasesOnCopy(other)) then [] else old(Contents())
      ensures st.Err? ==> st.error == if env.allocFails then AllocationError(old(other.len), kind.maxSize) else ElementError
    {
      if other == this {
        return Ok;
      }
      var src := other.Contents();
      if kind.traits.propagateOnCopy {
        if !Interchangeable(kind.traits, alloc, other.alloc) {
          Release();
          owner := other.alloc;  // the null block needs no allocator to free it
        }
        // Source: allocate_empty(other.size()) names no member of the class; the model
        // reads it as doing nothing. The source's deallocate() above also leaves m_begin
        // and m_realend pointing at the freed block, which the model resets (see Left out)
        alloc := other.alloc;
      }
      st := AssignFrom(src, env);
    }

    /** Move assignment. If the allocator propagates on move, or the allocators compare
        equal, this container frees its block and takes over other's, leaving other empty.
        Otherwise the elements are moved one by one (as AssignFrom does) and other keeps
        its moved-from elements. */
    method MoveAssign(other: Vector<T>, env: Env) returns (st: Status)
      requires Valid() && other.Valid() && other.kind == kind
      requires other != this && other.buf != buf
      modifies this, buf, other
      ensures Valid() && other.Valid()
      ensures st.Ok? ==> Contents() == old(other.Contents())
      ensures kind.traits.propagateOnMove ==>
                alloc == if kind.traits.alwaysEqual then old(alloc) else old(other.alloc)
      ensures !kind.traits.propagateOnMove ==> alloc == old(alloc)
      ensures old(StealsOnMove(other)) ==>
                st.Ok? && buf == old(other.buf) && other.Contents() == [] && other.Capacity() == 0
      ensures !old(StealsOnMove(other)) ==>
                other.buf == old(other.buf) && other.len == old(other.len) &&
                (buf == old(buf) || fresh(buf)) &&
                (st.Ok? <==> old(other.len) <= old(Capacity()) || (!env.allocFails && !env.ctorFails)) &&
                (st.Ok? ==> Capacity() == if old(other.len) <= old(Capacity()) then old(Capacity()) else old(other.len))
      ensures st.Err? ==> buf == old(buf) && Contents() == old(Contents())
      ensures st.Err? ==> st.error == if env.allocFails then AllocationError(old(other.len), kind.maxSize) else ElementError
      ensures other.alloc == old(other.alloc)
    {
      if kind.traits.propagateOnMove {
        // Source: m_alloc is replaced before deallocate(), so the old block is freed
        // through other's allocator (see Findings); the model frees it first
        Release();
        if !Interchangeable(kind.traits, alloc, other.alloc) {
          alloc := other.alloc;
        }
        buf, len := other.buf, other.len;
        owner := other.owner;
        other.buf, other.len := new T[0], 0;
        return Ok;
      }
      if !Interchangeable(kind.traits, alloc, other.alloc) {
        st := AssignFrom(other.Contents(), env);
        return;
      }
      Release();
      buf, len := other.buf, other.len;
      owner := other.owner;
      other.buf, other.len := new T[0], 0;
      return Ok;
    }

    /** Assignment from an initializer list. */
    method AssignList(il: seq<T>, env: Env) returns (st: Status)
      requires Valid()
      modifies this`buf, this`len, this`owner, buf
      ensures Valid() && (buf == old(buf) || fresh(buf))
      ensures st.Ok? <==> |il| <= old(Capacity()) || (!env.allocFails && !env.ctorFails)
      ensures st.Ok? ==> Contents() == il
      ensures st.Ok? ==> Capacity() == if |il| <= old(Capacity()) then old(Capacity()) else |il|
      ensures st.Err? ==> buf == old(buf) && Contents() == old(Contents())
      ensures st.Err? ==> st.error == if env.allocFails then AllocationError(|il|, kind.maxSize) else ElementError
    {
      // Source: the operator ends without `return *this`
      st := AssignFrom(il, env);
    }

    /** Exchanges the blocks, and the allocators only if they propagate on swap. Swapping
        containers whose allocators differ and do not propagate is undefined. */
    method Swap(other: Vector<T>)
      requires Valid() && other.Valid() && other.kind == kind
      requires kind.traits.propagateOnSwap || Interchangeable(kind.traits, alloc, other.alloc)
      modifies this, other
      ensures Valid() && other.Valid()
      ensures buf == old(other.buf) && other.buf == old(buf)
      ensures Contents() == old(other.Contents()) && other.Contents() == old(Contents())
      ensures kind.traits.propagateOnSwap ==> alloc == old(other.alloc) && other.alloc == old(alloc)
      ensures !kind.traits.propagateOnSwap ==> alloc == old(alloc) && other.alloc == old(other.alloc)
    {
      if kind.traits.propagateOnSwap {
        alloc, other.alloc := other.alloc, alloc;
      }
      buf, other.buf := other.buf, buf;
      len, other.len := other.len, len;
      owner, other.owner := other.owner, owner;
    }

    ////////////////////
    // Element access //
    ////////////////////

    /** check_range: out of range iff n >= size(). */
    method CheckRange(n: nat) returns (st: Status)
      requires Valid()
      ensures st.Err? <==> n >= Size()
      ensures st.Err? ==> st.error == OutOfRange
    {
      if n >= len {
        return Err(OutOfRange);
      }
      return Ok;
    }

    /** at(pos): the element at pos, or out of range. */
    method At(pos: nat) returns (r: Result<T>)
      requires Valid()
      ensures r.Success? <==> pos < Size()
      ensures r.Success? ==> r.value == Contents()[pos]
      ensures r.Failure? ==> r.error == OutOfRange
    {
      var st := CheckRange(pos);
      if st.Err? {
        return Failure(st.error);
      }
      // Source: returns *this[pos], which indexes `this` rather than the elements
      return Success(buf[pos]);
    }

    /** operator[]: unchecked; pos must be below size(). */
    function Get(pos: nat): (x: T)
      reads this, buf
      requires Valid() && pos < Size()
      ensures x == Contents()[pos]
    {
      buf[pos]
    }

    ////////////////
    // Allocation //
    ////////////////

    /** allocate_tmp(n): a fresh block of n slots, or the allocator's failure, reported as
        std::length_error when n exceeds max_size(). The allocation hint is dropped. */
    method AllocateTmp(n: nat, fails: bool) returns (r: Result<array<T>>)
      ensures r.Success? <==> !fails
      ensures r.Success? ==> fresh(r.value) && r.value.Length == n
      ensures r.Failure? ==> r.error == AllocationError(n, kind.maxSize)
      ensures r.Failure? ==> (r.error == LengthError <==> n > kind.maxSize)
      ensures r.Failure? ==> r.error != LengthError ==> r.error == BadAlloc
    {
      if fails {
        return Failure(AllocationError(n, kind.maxSize));
      }
      var b := new T[n];
      return Success(b);
    }

    /** deallocate(): destroys every element, then frees the block through m_alloc,
        which Valid() requires to be interchangeable with the allocator that supplied it. */
    method Release()
      requires Valid()
      modifies this`buf, this`len, this`owner
      ensures Valid() && fresh(buf) && Contents() == [] && Capacity() == 0
    {
      Clear();
      buf := new T[0];
      owner := alloc;
    }

    //////////////
    // Capacity //
    //////////////

    /** reserve(n): nothing if n <= capacity(); otherwise the elements move to a block of
        exactly n slots, built completely before the old block is freed. */
    method Reserve(newCap: nat, env: Env) returns (st: Status)
      requires Valid()
      modifies this`buf, this`len, this`owner
      ensures Valid() && Contents() == old(Contents())
      ensures newCap <= old(Capacity()) ==> st.Ok? && buf == old(buf)
      ensures newCap > old(Capacity()) ==> (st.Ok? <==> !env.allocFails && !env.ctorFails)
      ensures newCap > old(Capacity()) && st.Ok? ==> fresh(buf) && Capacity() == newCap
      ensures st.Err? ==> buf == old(buf)
      ensures st.Err? ==> st.error == if env.allocFails then AllocationError(newCap, kind.maxSize) else ElementError
    {
      if newCap > buf.Length {
        var r := AllocateTmp(newCap, env.allocFails);
        if r.Failure? {
          return Err(r.error);
        }
        var tmp := r.value;
        if env.ctorFails {
          // Source: the handler frees tmp with a one-argument deallocate, which does not compile
          return Err(ElementError);
        }
        var end := Algorithm.UninitializedMoveIfNoexceptLaunder(buf[..len], tmp, 0);
        buf, len := tmp, end;
        owner := alloc;
      }
      return Ok;
    }

    /** shrink_to_fit(): if size() < capacity(), the elements move to a block of exactly
        size() slots. */
    method ShrinkToFit(env: Env) returns (st: Status)
      requires Valid()
      modifies this`buf, this`len, this`owner
      ensures Valid() && Contents() == old(Contents())
      ensures old(len) == old(Capacity()) ==> st.Ok? && buf == old(buf)
      ensures old(len) < old(Capacity()) ==> (st.Ok? <==> !env.allocFails && !env.ctorFails)
      ensures st.Ok? ==> Capacity() == Size()
      ensures st.Err? ==> buf == old(buf)
      ensures st.Err? ==> st.error == if env.allocFails then AllocationError(old(len), kind.maxSize) else ElementError
    {
      var oldsize := len;
      if oldsize < buf.Length {
        var r := AllocateTmp(oldsize, env.allocFails);
        if r.Failure? {
          return Err(r.error);
        }
        var tmp := r.value;
        if env.ctorFails {
          return Err(ElementError);
        }
        var end := Algorithm.UninitializedMoveLaunder(buf[..len], tmp, 0);
        buf, len := tmp, end;
        owner := alloc;
      }
      return Ok;
    }

    /** resize(count), init standing for the value-initialised T(): grows to count elements
        by appending copies of init, or shrinks to the first count. Growing past the
        capacity builds a block of exactly count slots (old elements first, then the new
        ones) before freeing the old block. */
    method Resize(count: nat, init: T, env: Env) returns (st: Status)
      requires Valid()
      modifies this`buf, this`len, this`owner, buf
      ensures Valid() && (buf == old(buf) || fresh(buf))
      ensures st.Ok? <==> count <= old(Capacity()) || (!env.allocFails && !env.ctorFails)
      ensures st.Ok? ==> Contents() == if count <= old(len) then old(Contents())[..count]
                                       else old(Contents()) + Repeat(init, count - old(len))
      ensures st.Ok? ==> Capacity() == if count <= old(Capacity()) then old(Capacity()) else count
      ensures st.Err? ==> buf == old(buf) && Contents() == old(Contents())
      ensures st.Err? ==> st.error == if env.allocFails then AllocationError(count, kind.maxSize) else ElementError
    {
      if count > buf.Length {
        var r := AllocateTmp(count, env.allocFails);
        if r.Failure? {
          return Err(r.error);
        }
        var tmp := r.value;
        if env.ctorFails {
          return Err(ElementError);
        }
        MoveResized(count, init, tmp);
        buf, len := tmp, count;
        owner := alloc;
      } else if count > len {
        // Source: the loop tests `size() > count`, so it never runs and the container
        // does not grow (see Findings); the model runs it while size() < count
        while len < count
          invariant Valid() && buf == old(buf)
          invariant old(len) <= len <= count
          invariant Contents() == old(Contents()) + Repeat(init, len - old(len))
        {
          var _ := EmplaceBack(init, NoFault);
        }
      } else {
        while len > count
          invariant Valid() && buf == old(buf) && count <= len <= old(len)
          modifies this`len
        {
          PopBack();
        }
      }
      return Ok;
    }

    /** resize(count, value): as Resize, except that on reallocation the new copies of
        value are constructed before the old elements are moved. */
    method ResizeFill(count: nat, value: T, env: Env) returns (st: Status)
      requires Valid()
      modifies this`buf, this`len, this`owner, buf
      ensures Valid() && (buf == old(buf) || fresh(buf))
      ensures st.Ok? <==> count <= old(Capacity()) || (!env.allocFails && !env.ctorFails)
      ensures st.Ok? ==> Contents() == if count <= old(len) then old(Contents())[..count]
                                       else old(Contents()) + Repeat(value, count - old(len))
      ensures st.Ok? ==> Capacity() == if count <= old(Capacity()) then old(Capacity()) else count
      ensures st.Err? ==> buf == old(buf) && Contents() == old(Contents())
      ensures st.Err? ==> st.error == if env.allocFails then AllocationError(count, kind.maxSize) else ElementError
    {
      if count > buf.Length {
        var r := AllocateTmp(count, env.allocFails);
        if r.Failure? {
          return Err(r.error);
        }
        var tmp := r.value;
        if env.ctorFails {
          return Err(ElementError);
        }
        FillResized(count, value, tmp);
        // Source: m_end is set to the end of the moved elements, not to tmp + count
        // (see Findings)
        buf, len := tmp, count;
        owner := alloc;
      } else if count > len {
        // Source: the loop tests `size() > count`, so it never runs (see Findings)
        while len < count
          invariant Valid() && buf == old(buf)
          invariant old(len) <= len <= count
          invariant Contents() == old(Contents()) + Repeat(value, len - old(len))
        {
          var _ := EmplaceBack(value, NoFault);
        }
      } else {
        while len > count
          invariant Valid() && buf == old(buf) && count <= len <= old(len)
          modifies this`len
        {
          PopBack();
        }
      }
      return Ok;
    }

    /** The reallocating half of resize(count): the elements are moved into the new
        block, then the trailing ones value-initialised (init) after them. */
    method MoveResized(count: nat, init: T, tmp: array<T>)
      requires Valid() && len <= count <= tmp.Length && tmp != buf
      modifies tmp
      ensures tmp[..count] == Contents() + Repeat(init, count - len)
    {
      var end := Algorithm.UninitializedMoveIfNoexceptLaunder(buf[..len], tmp, 0);
      while end < count
        invariant len <= end <= count
        invariant tmp[..end] == Contents() + Repeat(init, end - len)
      {
        tmp[end] := init;
        end := end + 1;
      }
    }

    /** The reallocating half of resize(count, value): the copies of value are
        constructed first, in case value is one of this container's elements, then the
        elements are moved in front of them. */
    method FillResized(count: nat, value: T, tmp: array<T>)
      requires Valid() && len <= count <= tmp.Length && tmp != buf
      modifies tmp
      ensures tmp[..count] == Contents() + Repeat(value, count - len)
    {
      var end := len;
      while end < count
        invariant len <= end <= count
        invariant tmp[len..end] == Repeat(value, end - len)
      {
        tmp[end] := value;
        end := end + 1;
      }
      ghost var fill := tmp[len..count];
      end := Algorithm.UninitializedMoveIfNoexceptLaunder(buf[..len], tmp, 0);
      assert tmp[len..][..count - len] == fill;
      assert tmp[..count] == tmp[..len] + tmp[len..count];
    }

    /** clear(): destroys every element and keeps the block. */
    method Clear()
      requires Valid()
      modifies this`len
      ensures Valid() && Contents() == []
    {
      while len > 0
        invariant Valid()
      {
        PopBack();
      }
    }

    ///////////////
    // Insertion //
    ///////////////

    /** emplace_back(v): with a free slot, v is constructed into it. A full container
        builds a block of kind.flavor.Grow(size()) slots (2 * size() + 1 for vector_base),
        constructs v at index size() first and then moves the old elements over; only
        then is the old block freed, so a failure leaves the container as it was. */
    method EmplaceBack(v: T, env: Env) returns (st: Status)
      requires Valid()
      modifies this`buf, this`len, this`owner, buf
      ensures Valid()
      ensures st.Ok? <==> !env.ctorFails && (old(len) < old(Capacity()) || !env.allocFails)
      ensures st.Ok? ==> Contents() == old(Contents()) + [v]
      ensures st.Ok? && old(len) < old(Capacity()) ==> buf == old(buf)
      ensures st.Ok? && old(len) == old(Capacity()) ==>
                fresh(buf) && Capacity() == kind.flavor.Grow(old(len))
      ensures st.Err? ==> buf == old(buf) && Contents() == old(Contents())
      ensures st.Err? ==> st.error == if old(len) == old(Capacity()) && env.allocFails
                                      then AllocationError(kind.flavor.Grow(old(len)), kind.maxSize)
                                      else ElementError
    {
      if len < buf.Length {
        if env.ctorFails {
          return Err(ElementError);
        }
        buf[len] := v;
        len := len + 1;
        // Source: there is no return here, so the code falls through into the
        // reallocating path and constructs v a second time (see Findings)
        return Ok;
      }
      var oldsize := len;
      var newcap := kind.flavor.Grow(len);
      var r := AllocateTmp(newcap, env.allocFails);
      if r.Failure? {
        return Err(r.error);
      }
      var tmp := r.value;
      if env.ctorFails {
        return Err(ElementError);
      }
      // construct the new value first, in case it is one of this container's elements
      tmp[oldsize] := v;
      var _ := Algorithm.UninitializedMoveIfNoexceptLaunder(buf[..len], tmp, 0);
      buf, len := tmp, oldsize + 1;
      owner := alloc;
      return Ok;
    }

    /** push_back(v) is emplace_back(v). */
    method PushBack(v: T, env: Env) returns (st: Status)
      requires Valid()
      modifies this`buf, this`len, this`owner, buf
      ensures Valid()
      ensures st.Ok? <==> !env.ctorFails && (old(len) < old(Capacity()) || !env.allocFails)
      ensures st.Ok? ==> Contents() == old(Contents()) + [v]
      ensures st.Ok? && old(len) < old(Capacity()) ==> buf == old(buf)
      ensures st.Ok? && old(len) == old(Capacity()) ==>
                fresh(buf) && Capacity() == kind.flavor.Grow(old(len))
      ensures st.Err? ==> buf == old(buf) && Contents() == old(Contents())
      ensures st.Err? ==> st.error == if old(len) == old(Capacity()) && env.allocFails
                                      then AllocationError(kind.flavor.Grow(old(len)), kind.maxSize)
                                      else ElementError
    {
      st := EmplaceBack(v, env);
    }

    /** emplace(pos, v): v ends up at index pos, the elements from pos on one slot
        further, and pos is returned. At the end this is emplace_back. A full container
        reallocates as emplace_back does, constructing v at pos in the new block first.
        Otherwise v is constructed first and then the tail is shifted; a throwing move
        there is outside what the source guarantees. */
    method Emplace(pos: nat, v: T, env: Env) returns (r: Result<nat>)
      requires Valid() && pos <= len
      modifies this`buf, this`len, this`owner, buf
      ensures Valid() && (buf == old(buf) || fresh(buf))
      ensures r.Success? <==> !env.ctorFails && (old(len) < old(Capacity()) || !env.allocFails)
      ensures r.Success? ==> r.value == pos && Contents() == InsertAt(old(Contents()), pos, [v])
      ensures r.Success? ==> Capacity() == if old(len) < old(Capacity()) then old(Capacity())
                                           else kind.flavor.Grow(old(len))
      ensures r.Success? && old(len) < old(Capacity()) ==> buf == old(buf)
      ensures r.Failure? ==> buf == old(buf) && Contents() == old(Contents())
      ensures r.Failure? ==> r.error == if old(len) == old(Capacity()) && env.allocFails
                                        then AllocationError(kind.flavor.Grow(old(len)), kind.maxSize)
                                        else ElementError
    {
      if pos == len {
        var st := EmplaceBack(v, env);
        if st.Err? {
          return Failure(st.error);
        }
        return Success(len - 1);
      }
      if len == buf.Length {
        var newcap := kind.flavor.Grow(len);
        var a := AllocateTmp(newcap, env.allocFails);
        if a.Failure? {
          return Failure(a.error);
        }
        var tmp := a.value;
        if env.ctorFails {
          return Failure(ElementError);
        }
        // v is constructed at pos first, then the elements around it are moved over
        FillInserted(Contents(), pos, 1, v, tmp);
        assert Repeat(v, 1) == [v];
        buf, len := tmp, len + 1;
        owner := alloc;
        return Success(pos);
      }
      if env.ctorFails {
        return Failure(ElementError);
      }
      // Source: m_end is not advanced here, so the last element is lost; in
      // simple::vector the tail is also moved front to back onto itself, which copies
      // the element at pos over all of it (see Findings)
      FillInPlace(pos, 1, v);
      assert Repeat(v, 1) == [v];
      return Success(pos);
    }

    /** insert(pos, count, value): count copies of value at index pos; returns pos. A
        count of zero changes nothing. When size() + count exceeds the capacity, a block
        of 2 * size() + count slots is built (the copies first, then the elements before
        and after pos) before the old block is freed; otherwise the tail is shifted and
        the copies are assigned in place. */
    method InsertN(pos: nat, count: nat, v: T, env: Env) returns (r: Result<nat>)
      requires Valid() && pos <= len && kind.flavor == Base
      modifies this`buf, this`len, this`owner, buf
      ensures Valid() && (buf == old(buf) || fresh(buf))
      ensures r.Success? <==> !(0 < count && old(len) + count > old(Capacity()) && (env.allocFails || env.ctorFails))
      ensures r.Success? ==> r.value == pos && Contents() == InsertAt(old(Contents()), pos, Repeat(v, count))
      ensures r.Success? ==> Capacity() == if old(len) + count <= old(Capacity()) then old(Capacity())
                                           else 2 * old(len) + count
      ensures r.Success? && old(len) + count <= old(Capacity()) ==> buf == old(buf)
      ensures r.Failure? ==> buf == old(buf) && Contents() == old(Contents())
      ensures r.Failure? ==> r.error == if env.allocFails then AllocationError(2 * old(len) + count, kind.maxSize)
                                        else ElementError
    {
      if count == 0 {
        // Source: the function ends here without returning a value
        assert InsertAt(Contents(), pos, Repeat(v, 0)) == Contents();
        return Success(pos);
      }
      // Source: a `pos == end` branch emplaces a single copy whatever count is, and the
      // test below reads `m_end + count < m_realend`, the opposite of its comment "We
      // need to realloc" (see Findings)
      if len + count > buf.Length {
        var newcap := 2 * len + count;
        var a := AllocateTmp(newcap, env.allocFails);
        if a.Failure? {
          return Failure(a.error);
        }
        var tmp := a.value;
        if env.ctorFails {
          return Failure(ElementError);
        }
        FillInserted(Contents(), pos, count, v, tmp);
        buf, len := tmp, len + count;
        owner := alloc;
        return Success(pos);
      }
      FillInPlace(pos, count, v);
      return Success(pos);
    }

    /** The in-place half of insert(pos, count, value): the tail is shifted count slots
        back and the gap filled with std::fill. */
    method FillInPlace(pos: nat, count: nat, v: T)
      requires Valid() && pos <= len && len + count <= buf.Length
      modifies this`len, buf
      ensures Valid() && len == old(len) + count
      ensures Contents() == InsertAt(old(Contents()), pos, Repeat(v, count))
    {
      ghost var elems, s0 := Contents(), buf[..];
      ShiftBack(buf, pos, len, count);
      ghost var s1 := buf[..];
      // Source: m_end is not advanced by count here (see Findings)
      Fill(buf, pos, pos + count, v);
      InPlaceLayout(elems, pos, Repeat(v, count), s0, s1, buf[..]);
      len := len + count;
    }

    /** insert(pos, value): one copy of value at pos, delegated to insert(pos, 1, value).
        The rvalue overload is the same operation written out: emplace_back at the end,
        otherwise a block of 2 * size() + 1 slots when full, else a shift in place. */
    method Insert(pos: nat, v: T, env: Env) returns (r: Result<nat>)
      requires Valid() && pos <= len && kind.flavor == Base
      modifies this`buf, this`len, this`owner, buf
      ensures Valid() && (buf == old(buf) || fresh(buf))
      ensures r.Success? <==> !(old(len) + 1 > old(Capacity()) && (env.allocFails || env.ctorFails))
      ensures r.Success? ==> r.value == pos && Contents() == InsertAt(old(Contents()), pos, [v])
      ensures r.Success? ==> Capacity() == if old(len) < old(Capacity()) then old(Capacity())
                                           else 2 * old(len) + 1
      ensures r.Success? && old(len) < old(Capacity()) ==> buf == old(buf)
      ensures r.Failure? ==> buf == old(buf) && Contents() == old(Contents())
      ensures r.Failure? ==> r.error == if env.allocFails then AllocationError(2 * old(len) + 1, kind.maxSize)
                                        else ElementError
    {
      // Source: the delegating call's result is not returned
      r := InsertN(pos, 1, v, env);
      assert Repeat(v, 1) == [v];
    }

    /** insert(pos, first, last) for an input range: the elements are inserted one at a
        time, each after the previous; returns the index after the last one inserted. An
        insertion can fail only when it finds the block full; the elements inserted
        before it stay. */
    method InsertRange(pos: nat, src: seq<T>, env: Env) returns (r: Result<nat>, ghost inserted: nat)
      requires Valid() && pos <= len && kind.flavor == Base
      modifies this`buf, this`len, this`owner, buf
      ensures Valid() && inserted <= |src|
      ensures Contents() == InsertAt(old(Contents()), pos, src[..inserted])
      ensures r.Success? <==> inserted == |src|
      ensures r.Success? ==> r.value == pos + |src|
      ensures !env.allocFails && !env.ctorFails ==> r.Success?
      ensures r.Failure? ==> old(len) + inserted == Capacity()
      ensures r.Failure? ==> r.error == if env.allocFails then AllocationError(2 * (old(len) + inserted) + 1, kind.maxSize)
                                        else ElementError
    {
      var index, i := pos, 0;
      while i < |src|
        invariant Valid() && (buf == old(buf) || fresh(buf))
        invariant i <= |src| && index == pos + i && len == old(len) + i
        invariant Contents() == InsertAt(old(Contents()), pos, src[..i])
      {
        var one := Insert(index, src[i], env);
        if one.Failure? {
          return Failure(one.error), i;
        }
        InsertAtConcat(old(Contents()), pos, src[..i], [src[i]]);
        assert src[..i] + [src[i]] == src[..i + 1];
        index, i := index + 1, i + 1;
      }
      assert src[..i] == src;
      return Success(index), i;
    }

    /** insert(pos, il) is insert(pos, il.begin(), il.end()). */
    method InsertList(pos: nat, il: seq<T>, env: Env) returns (r: Result<nat>, ghost inserted: nat)
      requires Valid() && pos <= len && kind.flavor == Base
      modifies this`buf, this`len, this`owner, buf
      ensures Valid() && inserted <= |il|
      ensures Contents() == InsertAt(old(Contents()), pos, il[..inserted])
      ensures r.Success? <==> inserted == |il|
      ensures r.Success? ==> r.value == pos + |il|
      ensures !env.allocFails && !env.ctorFails ==> r.Success?
      ensures r.Failure? ==> old(len) + inserted == Capacity()
      ensures r.Failure? ==> r.error == if env.allocFails then AllocationError(2 * (old(len) + inserted) + 1, kind.maxSize)
                                        else ElementError
    {
      r, inserted := InsertRange(pos, il, env);
    }

    /////////////
    // Removal //
    /////////////

    /** pop_back(): destroys the last element; the block stays. */
    method PopBack()
      requires Valid() && len > 0
      modifies this`len
      ensures Valid() && Contents() == old(Contents())[..old(len) - 1]
    {
      len := len - 1;
    }

    /** erase(first, last): the elements after last move down onto first, then the
        surplus at the end is destroyed; returns first. */
    method EraseRange(first: nat, last: nat) returns (r: nat)
      requires Valid() && first <= last <= len && kind.flavor == Base
      modifies this`len, buf
      ensures Valid() && r == first
      ensures Contents() == RemoveRange(old(Contents()), first, last)
    {
      // Source: calls move_if_noexcept_launder(last, m_end, first, m_alloc), which the
      // algorithm header does not define; the model move-assigns [last, end) onto first
      MoveDown(buf, first, last, len);
      ghost var moved := buf[..len - (last - first)];
      assert moved == old(buf[..first]) + old(buf[last..len]) by {
        assert moved == buf[..first] + buf[first..len - (last - first)];
      }
      var k := 0;
      while k < last - first
        invariant 0 <= k <= last - first && len == old(len) - k
        modifies this`len
      {
        PopBack();
        k := k + 1;
      }
      assert buf[..len] == moved;
      return first;
    }

    /** erase(pos) is erase(pos, pos + 1). */
    method Erase(pos: nat) returns (r: nat)
      requires Valid() && pos < len && kind.flavor == Base
      modifies this`len, buf
      ensures Valid() && r == pos
      ensures Contents() == RemoveRange(old(Contents()), pos, pos + 1)
    {
      r := EraseRange(pos, pos + 1);
    }
  }

  /** Moves the slots [pos, n) of a count slots towards the end, the last one first
      (the backward moves of emplace and insert); slots below pos are untouched. */
  method ShiftBack<T>(a: array<T>, pos: nat, n: nat, count: nat)
    requires pos <= n && n + count <= a.Length
    modifies a
    ensures a[..pos] == old(a[..pos])
    ensures a[pos + count..n + count] == old(a[pos..n])
  {
    ghost var s := a[..];
    var k := n;
    while k > pos
      invariant pos <= k <= n
      invariant a[..k] == s[..k]
      invariant a[k + count..n + count] == s[k..n]
    {
      k := k - 1;
      a[k + count] := a[k];
    }
  }

  /** The reallocating half of insert(pos, count, value): the count copies are
      constructed into the new block first, then the elements src before and after pos
      are moved around them. */
  method FillInserted<T>(src: seq<T>, pos: nat, count: nat, v: T, tmp: array<T>)
    requires pos <= |src| && |src| + count <= tmp.Length
    modifies tmp
    ensures tmp[..|src| + count] == InsertAt(src, pos, Repeat(v, count))
  {
    Fill(tmp, pos, pos + count, v);
    ghost var t0 := tmp[..];
    var _ := Algorithm.UninitializedMoveIfNoexceptLaunder(src[..pos], tmp, 0);
    ghost var t1 := tmp[..];
    var _ := Algorithm.UninitializedMoveIfNoexceptLaunder(src[pos..], tmp, pos + count);
    InsertedLayout(src, pos, Repeat(v, count), t0, t1, tmp[..]);
  }

  /** The three steps of FillInserted, on the successive contents of the new block: the
      copies at [pos, pos + count), then the front moved below them, then the back moved
      above them. */
  lemma InsertedLayout<T>(src: seq<T>, pos: nat, xs: seq<T>, t0: seq<T>, t1: seq<T>, t2: seq<T>)
    requires pos <= |src| && |src| + |xs| <= |t0| == |t1| == |t2|
    requires t0[pos..pos + |xs|] == xs
    requires t1[0..pos] == src[..pos] && t1[pos..] == t0[pos..]
    requires t2[..pos + |xs|] == t1[..pos + |xs|] && t2[pos + |xs|..|src| + |xs|] == src[pos..]
    ensures t2[..|src| + |xs|] == InsertAt(src, pos, xs)
  {
    SameSlice(t1, t0, pos, |t0|, pos, pos + |xs|);
    SameSlice(t2, t1, 0, pos + |xs|, 0, pos);
    SameSlice(t2, t1, 0, pos + |xs|, pos, pos + |xs|);
    Splice(t2, src[..pos], xs, src[pos..]);
  }

  /** The two steps of FillInPlace, on the successive contents of the block: s0 holds
      elems at its front, s1 has the tail shifted |xs| slots back, s2 has xs in the gap. */
  lemma InPlaceLayout<T>(elems: seq<T>, pos: nat, xs: seq<T>, s0: seq<T>, s1: seq<T>, s2: seq<T>)
    requires pos <= |elems| && |elems| + |xs| <= |s0| == |s1| == |s2|
    requires s0[..|elems|] == elems
    requires s1[..pos] == s0[..pos] && s1[pos + |xs|..|elems| + |xs|] == s0[pos..|elems|]
    requires s2[..pos] == s1[..pos] && s2[pos..pos + |xs|] == xs && s2[pos + |xs|..] == s1[pos + |xs|..]
    ensures s2[..|elems| + |xs|] == InsertAt(elems, pos, xs)
  {
    SameSlice(s0, elems, 0, |elems|, 0, pos);
    SameSlice(s0, elems, 0, |elems|, pos, |elems|);
    SameSlice(s2, s1, pos + |xs|, |s1|, pos + |xs|, |elems| + |xs|);
    Splice(s2, elems[..pos], xs, elems[pos..]);
  }

  /** std::fill(a + from, a + to, v): the slots [from, to) hold v, the others are
      untouched. */
  method Fill<T>(a: array<T>, from: nat, to: nat, v: T)
    requires from <= to <= a.Length
    modifies a
    ensures a[..from] == old(a[..from])
    ensures a[from..to] == Repeat(v, to - from)
    ensures a[to..] == old(a[to..])
  {
    var i := from;
    while i < to
      invariant from <= i <= to
      invariant a[..from] == old(a[..from])
      invariant a[from..i] == Repeat(v, i - from)
      invariant a[i..] == old(a[i..])
    {
      a[i] := v;
      i := i + 1;
    }
  }

  /** The first half of erase(first, last): the slots [last, n) of a move down onto
      first, front to back; the slots below first are untouched. */
  method MoveDown<T>(a: array<T>, first: nat, last: nat, n: nat)
    requires first <= last <= n <= a.Length
    modifies a
    ensures a[..first] == old(a[..first])
    ensures a[first..n - (last - first)] == old(a[last..n])
  {
    ghost var s := a[..];
    var gap := last - first;
    var i := last;
    while i < n
      invariant last <= i <= n
      invariant a[..first] == s[..first]
      invariant a[first..i - gap] == s[last..i]
      invariant a[i..] == s[i..]
    {
      ghost var b := a[..];
      a[i - gap] := a[i];
      MoveDownStep(s, b, a[..], first, last, i);
      i := i + 1;
    }
  }

  /** One step of MoveDown on the contents of the array: s before the loop, b before
      the step and c after it. */
  lemma MoveDownStep<T>(s: seq<T>, b: seq<T>, c: seq<T>, first: nat, last: nat, i: nat)
    requires first <= last <= i < |s| == |b|
    requires b[..first] == s[..first] && b[first..i - (last - first)] == s[last..i] && b[i..] == s[i..]
    requires c == b[i - (last - first) := b[i]]
    ensures c[..first] == s[..first]
    ensures c[first..i + 1 - (last - first)] == s[last..i + 1]
    ensures c[i + 1..] == s[i + 1..]
  {
    var d := i - (last - first);
    assert b[i] == b[i..][0] == s[i];
    assert c[first..d + 1] == b[first..d] + [s[i]];
    assert s[last..i + 1] == s[last..i] + [s[i]];
    assert c[i + 1..] == b[i..][1..];
  }

  /** The free swap(a, b). */
  method Swap<T(0)>(a: Vector<T>, b: Vector<T>)
    requires a.Valid() && b.Valid() && a.kind == b.kind
    requires a.kind.traits.propagateOnSwap || Interchangeable(a.kind.traits, a.alloc, b.alloc)
    modifies a, b
    ensures a.Valid() && b.Valid()
    ensures a.buf == old(b.buf) && b.buf == old(a.buf)
    ensures a.Contents() == old(b.Contents()) && b.Contents() == old(a.Contents())
    ensures a.kind.traits.propagateOnSwap ==> a.alloc == old(b.alloc) && b.alloc == old(a.alloc)
    ensures !a.kind.traits.propagateOnSwap ==> a.alloc == old(a.alloc) && b.alloc == old(b.alloc)
  {
    a.Swap(b);
  }

  /** operator==: equal sizes and pairwise equal elements. */
  function Equal<T(0, ==)>(a: Vector<T>, b: Vector<T>): (r: bool)
    reads a, a.buf, b, b.buf
    requires a.Valid() && b.Valid()
    ensures r <==> a.Size() == b.Size() && forall i | 0 <= i < a.Size() :: a.Contents()[i] == b.Contents()[i]
    ensures r <==> a.Contents() == b.Contents()
  {
    PairwiseEqual(a.Contents(), b.Contents())
  }

  /** operator<=> with the element comparison cmp: the element type's own `<=>`, or
      Synthesized(lt) for a type with only `<`. */
  function Compare<T(0, !new)>(a: Vector<T>, b: Vector<T>, cmp: (T, T) -> Ordering): (r: Ordering)
    reads a, a.buf, b, b.buf
    requires a.Valid() && b.Valid()
    ensures forall k | 0 <= k < a.Size() && k < b.Size() ::
              (forall i | 0 <= i < k :: cmp(a.Contents()[i], b.Contents()[i]) == Equivalent) &&
              cmp(a.Contents()[k], b.Contents()[k]) != Equivalent
              ==> r == cmp(a.Contents()[k], b.Contents()[k])
    ensures a.Size() < b.Size() && (forall i | 0 <= i < a.Size() :: cmp(a.Contents()[i], b.Contents()[i]) == Equivalent)
            ==> r == Less
    ensures b.Size() < a.Size() && (forall i | 0 <= i < b.Size() :: cmp(a.Contents()[i], b.Contents()[i]) == Equivalent)
            ==> r == Greater
    ensures a.Size() == b.Size() && (forall i | 0 <= i < a.Size() :: cmp(a.Contents()[i], b.Contents()[i]) == Equivalent)
            ==> r == Equivalent
    ensures (forall x, y :: cmp(x, y) == cmp(y, x).Flip()) ==> r == LexCompare(b.Contents(), a.Contents(), cmp).Flip()
  {
    LexCompareLaws(a.Contents(), b.Contents(), cmp);
    LexCompare(a.Contents(), b.Contents(), cmp)
  }

  /** std::remove_if over the first n slots of a: the elements not matching p move to
      the front, in order; returns how many there are. */
  method RemoveIf<T>(a: array<T>, n: nat, p: T -> bool) returns (k: nat)
    requires n <= a.Length
    modifies a
    ensures k <= n
    ensures a[..k] == RemovedIf(old(a[..n]), p)
  {
    ghost var s0 := a[..];
    k := 0;
    var i := 0;
    while i < n
      invariant k <= i <= n
      invariant a[..k] == RemovedIf(s0[..i], p)
      invariant a[i..] == s0[i..]
    {
      ghost var b, k0 := a[..], k;
      if !p(a[i]) {
        a[k] := a[i];
        k := k + 1;
      }
      RemoveIfStep(s0, p, b, a[..], i, k0, k);
      i := i + 1;
    }
  }

  /** One step of RemoveIf on the contents of the array: s0 before the loop, b before
      the step and c after it, k0 and k1 the count kept before and after. */
  lemma RemoveIfStep<T>(s0: seq<T>, p: T -> bool, b: seq<T>, c: seq<T>, i: nat, k0: nat, k1: nat)
    requires k0 <= i < |s0| == |b|
    requires b[..k0] == RemovedIf(s0[..i], p) && b[i..] == s0[i..]
    requires if p(b[i]) then c == b && k1 == k0 else c == b[k0 := b[i]] && k1 == k0 + 1
    ensures k1 <= i + 1 && c[..k1] == RemovedIf(s0[..i + 1], p) && c[i + 1..] == s0[i + 1..]
  {
    assert b[i] == b[i..][0] == s0[i];
    assert s0[..i + 1] == s0[..i] + [s0[i]];
    RemovedIfAppend(s0[..i], [s0[i]], p);
    RemovedIfCons(s0[i], [], p);
    assert [s0[i]] + [] == [s0[i]];
    if !p(b[i]) {
      assert c[..k1] == b[..k0] + [s0[i]];
    }
    assert c[i + 1..] == b[i..][1..];
  }

  /** The free erase_if(c, pred): removes the elements matching pred, keeping the others
      in order, and returns how many were removed. */
  method EraseIf<T(0)>(c: Vector<T>, p: T -> bool) returns (removed: nat)
    requires c.Valid() && c.kind.flavor == Base
    modifies c, c.buf
    ensures c.Valid() && c.buf == old(c.buf) && c.alloc == old(c.alloc)
    ensures c.Contents() == RemovedIf(old(c.Contents()), p)
    ensures removed == CountIf(old(c.Contents()), p)
    ensures forall x :: x in c.Contents() <==> x in old(c.Contents()) && !p(x)
  {
    ghost var s := c.Contents();
    var it := RemoveIf(c.buf, c.len, p);
    ghost var t := c.Contents();
    assert t[..it] == RemovedIf(s, p);
    removed := c.len - it;
    var _ := c.EraseRange(it, c.len);
    assert c.Contents() == t[..it];
    RemovedIfLength(s, p);
    forall x
      ensures x in c.Contents() <==> x in s && !p(x)
    {
      RemovedIfMembers(s, p, x);
    }
  }

  /** The predicate std::remove compares with. */
  function Matches<T(==)>(value: T): T -> bool {
    x => x == value
  }

  /** The free erase(c, value): removes every element equal to value, keeping the others
      in order, and returns how many were removed. */
  method EraseValue<T(0, ==)>(c: Vector<T>, value: T) returns (removed: nat)
    requires c.Valid() && c.kind.flavor == Base
    modifies c, c.buf
    ensures c.Valid() && c.buf == old(c.buf) && c.alloc == old(c.alloc)
    ensures c.Contents() == RemovedIf(old(c.Contents()), Matches(value))
    ensures removed == CountIf(old(c.Contents()), Matches(value))
    ensures value !in c.Contents()
    ensures forall x :: x in c.Contents() <==> x in old(c.Contents()) && x != value
  {
    removed := EraseIf(c, Matches(value));
  }
}
